=== FILE: README.md ===
# Digital waiter menu — order lifecycle model

A Dafny model of the order lifecycle of a restaurant's single-page waiter app
(`app.js`). One global `state` record holds seven fields:

- the selected table;
- one draft cart per table;
- the kitchen queue of submitted orders, each `pending`, `preparing`, `ready` or `served`;
- a per-table status map;
- the owner's ledger of archived bills;
- the bill preview staged between "vacate table" and "confirm";
- the kitchen view's status filter.

The model keeps the first six as fields of a class. The filter is an input of the kitchen render instead.

The waiter works with it as follows:

- picks a table, adds menu items to its draft and sends the draft to the kitchen as one order;
- the kitchen moves orders through their statuses, and the waiter marks ready orders served;
- vacating a table is two-phase: a bill preview is staged, then confirming archives it as a bill;
- the owner can delete one bill or clear the ledger, and draws a daily report from the ledger.

Modules:

- `Types`: the values (menu items, grouped lines, kitchen orders, bills, the staged preview, the error outcomes).
- `Menu`: the fixed catalog.
- `Grouping`: grouping items by id with a quantity per group, and the totals the views compute.
- `Kitchen`: the queue as a value. It covers:
  - the per-table filters and badge counts;
  - the button gating;
  - the status steps;
  - the load-time status migration.
- `Ledger`: revenue, lookup by id, splicing a bill out.
- `Report`: the daily-report data, i.e. the day filter, bucketing by table, ascending table order, and subtotals and grand total.
- `Restaurant`: the `state` record as the class `AppState`, whose fields the actions update in place. Each action is a method stating its whole new state. The actions that can fail return `Pass` or `Fail(error)`; `SelectTable` and `CloseBillModal` cannot fail and return nothing.
  - `clock` is one counter that replaces the wall clock for ids and timestamps.
  - `Valid()` says three things:
    - the selected table has a draft;
    - every order's id and timestamp are below `clock`;
    - every bill's id and timestamp are below `clock`.
  - `PreviewStaged()` says a staged preview is exactly what `initiateTableVacation` builds.
- `Scenarios`: short service sequences on a freshly booted state using the catalog's own entries, e.g. two Chicken Wings and a Coke group into two lines worth 420.

## Model

| member | source | states |
|---|---|---|
| Types.FirstWith | app.js:708 | `find` by id on the queue (`FindOrder`) and `findIndex` by id on the ledger (`FindBill`, app.js:1242): none iff no element has the id; otherwise the first position holding it. |
| Menu.CatalogWellFormed | app.js:6-31 | The catalog has sixteen entries. Entry k has id k + 1 and a positive price. Categories come in blocks of four: starters, main course, drinks, desserts. |
| Menu.CatalogCopiesConsistent | app.js:6-31 | Items copied from the catalog share a price whenever they share an id, because catalog ids are distinct. |
| Grouping.AddItem | app.js:220-227 | One grouping step keeps the lines strictly ascending by id. That is the order in which an object enumerates array-index keys, the range `ItemId` keeps item ids in. The first line then carries the smaller of the item's id and the old first id. |
| Grouping.Group | app.js:219-227 | Grouping any item list yields lines strictly ascending by id, hence one line per id. |
| Grouping.AddItemLookup | app.js:222-226 | Adding an item bumps by one the quantity of the line with its id, or starts a line holding a copy of the item with quantity 1. Every other id looks up as before. |
| Grouping.AddItemSums | app.js:219-234 | Adding an item raises the quantity sum by one. It raises the price × quantity total by the price of the line it joins, or by its own price for a new line. |
| Grouping.GroupLookup | app.js:219-227 | Grouping is exact. An id has a line iff some item carries it. That line holds a copy of the first such item, with the number of such items as quantity. |
| Grouping.GroupQuantitySum | app.js:219-227 | The quantities of the grouped lines add up to the number of items. |
| Grouping.GroupTotal | app.js:232-234 | When items sharing an id share a price, `LinesTotal` (the sum of price × quantity over the grouping) equals `PriceSum` (the plain sum of item prices). This ties the preview's running `grandTotal += price` to the views' `price * quantity`. See also app.js:776-784. |
| Grouping.MixedPricesDiverge | app.js:232-234 | Two copies of one id saved at prices 170 and 180 group into one line at the first price. Price × quantity then gives 340, while the preview's running sum (app.js:783) gives 350. |
| Grouping.Subtotal | app.js:232-234 | The view's loop total is the sum of price × quantity over the lines. |
| Grouping.SummarizeItems | app.js:219-234 | The order summary and order cards produce exactly the grouping of the items, and the total over those lines. The same loop appears at app.js:366-381. |
| Kitchen.OrdersOf | app.js:765 | The table filter keeps exactly the queued orders of that table. See also app.js:262 and app.js:323. |
| Kitchen.RemoveTable | app.js:880 | The vacate filter keeps exactly the orders of the other tables. |
| Kitchen.UiTransition | app.js:404-412 | The two steps the order cards offer each advance an order exactly one stage, and neither reaches `served`. |
| Kitchen.ServeOne | app.js:744-745 | An order either stays as it was, or, being a ready order of the table, becomes served. Afterwards no order of the table is ready. |
| Kitchen.ReadyGate | app.js:323-328 | The button's `some(ready)` test (`HasReadyOrders`) and the action's count of ready orders (`ReadyCount`) agree. See also app.js:734-741. |
| Kitchen.PartitionByTable | app.js:765 | A table's orders and the other tables' orders partition the queue, as multisets and in length. See also app.js:880. |
| Kitchen.RemoveTableAppend | app.js:880 | The vacate filter distributes over concatenation, so the remaining orders keep their relative order. |
| Kitchen.AppendOrderEffect | app.js:690 | Pushing an order makes it its table's newest order. It adds one to that table's badge if not served, and leaves every other table's orders alone. See also app.js:155-157. |
| Kitchen.RemoveTableEffect | app.js:880 | After the filter, the vacated table has no orders and a badge of 0. Every other table keeps its orders, in order, and its badge count. See also app.js:155-157. |
| Kitchen.RemoveTableOthers | app.js:880 | RemoveTableEffect for every other table at once. See also app.js:155-157. |
| Kitchen.ActiveOrderCountAppend | app.js:155-157 | The badge count `ActiveOrderCount` is additive over a split of the queue. |
| Kitchen.BadgeBounds | app.js:155-157 | A table's badge counts at least its ready orders and at most all its orders. It reads 0 iff every order of the table is served. |
| Kitchen.ActiveCountSetStatus | app.js:155-157 | Rewriting one order's status between two statuses other than `served` leaves every table's badge count unchanged. See also app.js:706-711. |
| Kitchen.ServeReadyCounts | app.js:727-746 | Serving table t's ready orders (`ServeReady`, the `forEach` at app.js:744-746) lowers its badge by exactly its ready count, so the badge never rises. No order of t is left ready, and other tables' counts are unchanged. See also app.js:155-157. |
| Kitchen.NewestFirstFacts | app.js:356 | The kitchen view's sort `(a, b) => b.timestamp - a.timestamp` (`NewestFirst`) yields timestamps that never rise. It keeps exactly the same orders as a multiset, so no table's badge or ready count changes. |
| Kitchen.NewestFirstKeepsSorted | app.js:356 | Idempotent: a queue already newest first is left exactly as it is, so re-rendering reorders nothing. |
| Kitchen.NewestFirstStable | app.js:356 | The sort is stable, as JavaScript's `sort` is: for every timestamp, the orders carrying it come out in the order they had in the queue (`StampedAt`). |
| Kitchen.NewestFirstPutsNewerFirst | app.js:356 | An order stamped later than every queued order, appended and then rendered, heads the queue; behind it the earlier orders appear as rendering them alone would place them. |
| Kitchen.NewestFirstReverses | app.js:356 | Orders whose timestamps strictly rise in queue order, such as successive submissions, end up in exactly the reverse order. |
| Kitchen.NewestFirstKeepsUnique | app.js:356 | Sorting keeps order ids unique. |
| Kitchen.FindUnique | app.js:708 | With unique ids, `find` hits the one order carrying the id. |
| Kitchen.AppendFreshKeepsUnique | app.js:682-690 | Appending an order whose id exceeds every queued id keeps ids unique. |
| Kitchen.RemoveTableKeepsUnique | app.js:880 | The vacate filter keeps ids unique. |
| Kitchen.Migrate | app.js:83-85 | A stored order lacking a status loads as `pending`. A present status is kept, and every other field is unchanged. |
| Kitchen.MigrateAll | app.js:83-85 | The migration applies position by position and keeps the queue's length. |
| Kitchen.StoreMigrateRoundTrip | app.js:83-103 | Saving a queue and loading it back gives the same queue: the migration only touches orders without a status. |
| Ledger.RevenueAppend | app.js:438 | The revenue reduce (`Revenue`) is additive over any split of the ledger. |
| Ledger.RemoveAt | app.js:1245 | `splice(i, 1)` keeps every bill before i and shifts every bill after i down by one, so the ledger is one shorter. |
| Ledger.RemoveAtRevenue | app.js:438 | Splicing a bill out lowers the revenue by exactly its grand total. See also app.js:1245. |
| Ledger.DeleteByIdExact | app.js:1242-1245 | With unique ids, deleting by id leaves no bill with that id and keeps every other bill. Ids stay unique. |
| Ledger.AppendFreshBillKeepsUnique | app.js:858-868 | Appending a bill whose id exceeds every stored id keeps bill ids unique. |
| Ledger.WellFormedBillTotals | app.js:776-787 | A bill built by vacation whose same-id items share a price (true of copies of menu entries, by `Menu.CatalogCopiesConsistent`) has a stored grand total equal to the sum of price × quantity over its lines. Its quantities count every item of its orders. See also app.js:854-866 and app.js:1072-1075. |
| Report.BillsOnDay | app.js:1016-1019 | The day filter keeps exactly the bills whose timestamp lies in the inclusive range [dayStart, dayEnd]. |
| Report.BillsOnDayAppend | app.js:1016-1019 | The day filter distributes over concatenation, so it keeps ledger order. |
| Report.BillsOfTableMembers | app.js:1049-1055 | A table's bucket holds exactly the kept bills of that table. |
| Report.FirstAppearance | app.js:1049-1055 | The bucket keys are distinct and are exactly the tables that have a bill. |
| Report.TableGroupsSpec | app.js:1049-1055 | After bucketing into the `billsByTable` object (`TableGroups`), a table is a key iff it has a bill, and its bucket is its bills in ledger order. |
| Report.InsertSorted | app.js:1058 | Inserting into an ascending key list keeps it strictly ascending, adds exactly the new key and grows the list by one. |
| Report.SortTables | app.js:1058 | The numeric sort of distinct keys is strictly ascending and holds exactly the same keys. |
| Report.SectionsFor | app.js:1058-1095 | There is one section per listed table, in list order. Each holds that table's bills and their price × quantity subtotal. |
| Report.Sections | app.js:1049-1095 | In the report layout, tables are strictly ascending and a table has a section iff it has a bill. Each section holds exactly that table's bills (never none) and their subtotal. |
| Report.SectionsSnocBill | app.js:1072-1095 | One more bill adds its price × quantity total to its own table's subtotal only. |
| Report.SectionsTotalIsBillsTotal | app.js:1072-1095 | When every table is listed once, the per-table subtotals add up to the total of all the bills. |
| Report.ReportTotal | app.js:1072-1095 | The report's grand total is the price × quantity total of all the day's bills. When each bill's stored grandTotal agrees with its lines, it also equals the revenue reduce over those bills. See also app.js:438. |
| Report.TotalIsRevenue | app.js:438 | When each bill's stored grandTotal equals its price × quantity total, the two totals over a bill list agree. See also app.js:1072-1075. |
| Report.GroupBillsByTable | app.js:1049-1055 | The bucketing loop creates a key on a table's first bill and pushes each bill into its table's bucket. The keys are then exactly the tables with bills, each once, and every bucket holds exactly its table's bills. |
| Report.TableSubtotal | app.js:1059-1086 | One table's loop subtotal is the price × quantity total of its bills. |
| Report.BuildSections | app.js:1058-1095 | Walking the tables in order yields SectionsFor those tables, and the running grand total is the sum of their subtotals. |
| Report.BuildDailyReport | app.js:1016-1095 | The report fails with "no bills" iff the day keeps no bill. Otherwise it holds the layout of Sections over the kept bills, and its grand total is their price × quantity total. |
| Restaurant.StampBound | app.js:72-90 | The counter chosen at load is above every loaded order and bill id and every loaded order and bill timestamp. It stands for `Date.now()` after a reload, which reads later than anything saved before it. See also app.js:682-685. |
| Restaurant.Archive | app.js:854-866 | The archived bill carries the preview's table, orders, lines and grand total, the new id and timestamp, and payment status `pending`. |
| Restaurant.ConfirmFacts | app.js:848-880 | Confirming a staged preview has these effects: the bill is well formed; revenue rises by the preview's grand total; the table's orders leave the queue while other tables' orders and badges stay; ids stay below the advanced counter and stay distinct. |
| Restaurant.AddOrderItems | app.js:777-784 | The inner preview loop extends the grouping and the running price sum by one order's items. |
| Restaurant.BillPreview | app.js:772-787 | The preview's lines are the grouping of all items of all the table's orders, in order. Its grand total is the sum of those items' prices. |
| Restaurant.AppState.Save | app.js:92-103 | Saving writes the four persisted buckets. Loading its orders back through the migration gives the queue unchanged. |
| Restaurant.AppState.Boot | app.js:52-90 | Boot loads each saved bucket, using an empty default for a missing one, and migrates statuses. It then empties the table-status map and starts with no table and no preview, under the class invariant. |
| Restaurant.AppState.SelectTable | app.js:616-631 | A vacated table becomes active and the table is selected. A table without a draft gets an empty one, and other drafts are unchanged. No status becomes `vacated`. |
| Restaurant.AppState.AddItemToOrder | app.js:638-644 | With no table it fails and changes nothing. Otherwise it appends exactly the item to the selected draft and nothing else. |
| Restaurant.AppState.ClearOrder | app.js:651-657 | With no table it fails and changes nothing. Otherwise it empties the selected draft only. |
| Restaurant.AppState.SendToKitchen | app.js:664-693 | With no table or an empty draft it fails and changes nothing. Otherwise it appends exactly one `pending` order holding the draft for the selected table, with a fresh id and a timestamp later than every queued order's. The draft is then empty and other drafts unchanged. The order becomes the table's newest, the table's badge rises by one, other tables' orders are unchanged, and ids stay unique. |
| Restaurant.AppState.UpdateOrderStatus | app.js:706-711 | With an unknown id it fails and changes nothing. Otherwise only that order's status changes. A step the cards offer advances it one stage, and a step between non-served statuses changes no badge. Ids stay unique. See also app.js:404-412. |
| Restaurant.AppState.MarkReadyItemsServed | app.js:727-746 | With no table, or no ready order for it, it fails and changes nothing. Otherwise every ready order of the table becomes served and every other order keeps its status. The table's badge drops by its ready count, none of its orders stays ready, and other badges are unchanged. |
| Restaurant.AppState.InitiateTableVacation | app.js:756-795 | With no table it fails and leaves the preview alone. It also fails that way exactly when `HasAnyOrders`, the vacate button's enabling test at app.js:325, is false. Otherwise it stages the table's orders, their grouped items and their price sum, and only the preview changes. |
| Restaurant.AppState.CloseBillModal | app.js:842-846 | Discards the staged preview. |
| Restaurant.AppState.RenderKitchenOrders | app.js:337-356 | Under the "all" filter the stored queue itself is sorted newest first, in place. Under any other filter the sort works on a filtered copy and the queue is unchanged. Either way no badge moves and ids stay unique. |
| Restaurant.AppState.ConfirmTableVacation | app.js:848-898 | With nothing staged it fails and changes nothing. Otherwise it appends exactly the archived bill, resets the table's draft and sets its status to active. It drops the table's orders from the queue, keeping the others in order. It clears the preview, deselects the table if it was selected, and no status becomes `vacated`. |
| Restaurant.AppState.DeleteBill | app.js:1223-1245 | Each gate fails and leaves the ledger unchanged: without authorisation; for an absent id; without confirmation. Otherwise exactly that entry is spliced out: one bill fewer, revenue lower by its grand total, ids still unique. |
| Restaurant.AppState.ClearAllBillingData | app.js:1190-1206 | Each gate fails and leaves the ledger unchanged: outside edit mode; without authorisation; without confirmation. Otherwise the ledger is empty and revenue is 0. |
| Scenarios.WingsAndCoke | app.js:219-234 | Two Chicken Wings and a Coke group into the lines Wings × 2 and Coke × 1, worth 420. |
| Scenarios.TableThreeSubmitted | app.js:616-693 | After boot, selecting table 3, adding Wings, Wings and Coke, and sending gives a queue of exactly one pending order for table 3 with those items. |
| Scenarios.TableThreeServed | app.js:706-746 | Moving that order to preparing, then ready, then marking served leaves one served order. Its card shows Wings × 2 and Coke × 1 for 420, and table 3's badge reads 0. |
| Scenarios.EmptySubmitFails | app.js:664-677 | Sending an empty draft fails with "no items" and the queue stays empty. |
| Scenarios.TableFiveSubmitted | app.js:616-693 | Two submissions for table 5 give two pending orders with consecutive ids. They are in submission order, which is the queue as the actions leave it, before the kitchen view re-sorts it. |
| Scenarios.TableFiveKitchenView | app.js:337-356 | Once the kitchen view renders under the "all" filter, as the source does after each submission, the stored queue holds the second order ahead of the first. |
| Scenarios.ReloadOneOrder | app.js:72-90 | Loading a saved queue with one pending order for table 1, id 1000 and timestamp 1001, yields exactly that order, no table selected, no drafts, and a clock of 1002, above both. |
| Scenarios.ReloadedKitchenView | app.js:337-356 | After that reload, table 2 submits a Coke; the "all" render then puts the new order, stamped 1002, ahead of the saved one. |
| Scenarios.TableFiveItems | app.js:772-784 | Table 5's two orders hold four items whose prices sum to 450. |
| Scenarios.TableFiveVacated | app.js:756-898 | Vacating and confirming table 5 archives one pending-payment bill of 450 for table 5. The table has no orders left, is active, and is no longer selected. |

## Left out

- Grouping.GroupTotal holds only when items sharing an id share a price. The source does not enforce this: a draft or order saved before a menu price change keeps the old price. In that case a bill's stored `grandTotal` (the running sum, app.js:783) differs from the price × quantity total of its lines, which the views and the daily report show (app.js:1074). `Grouping.MixedPricesDiverge` gives such an input.
- Item ids are limited to the array-index range 0 to 2^32 − 2 (`ItemId`). The menu's ids are 1 to 16. A stored item with any other id is not representable: it would enumerate after the array-index keys in insertion order, not in ascending order.
- Rendering, the HTML templates, theme switching, toasts and console logging are not modelled. The one exception is the kitchen view's render: under the "all" filter it writes to the state by sorting the stored queue in place (`Restaurant.AppState.RenderKitchenOrders`). The rest only display the counts and totals modelled here.
- Restaurant.AppState.Boot, Restaurant.AppState.SendToKitchen, Restaurant.AppState.UpdateOrderStatus, Restaurant.AppState.MarkReadyItemsServed and Restaurant.AppState.ConfirmTableVacation do not end with the kitchen render.
  - In the source each of them calls `renderKitchenOrders` (app.js:64, 697, 712, 750, 891). Under the default filter `'all'`, that re-sorts the stored queue newest first, in place.
  - The model keeps the queue in the order the action leaves it, which is submission order for queues it builds. The render is a separate step a caller applies afterwards.
  - A queue is saved before that sort (app.js:695) and re-sorted on the next boot.
  - Because the queue is not re-sorted, a bill's `orders` come out oldest first in the model and newest first in the source. With mixed prices (see `Grouping.GroupTotal` above), the first-seen copy of an item, and so its line price, can then differ too.
- localStorage and JSON are not modelled.
  - `Restaurant.AppState.Boot` takes the parsed snapshot as an input. `None` stands for nothing stored or an unparsable one.
  - `Restaurant.AppState.Save` returns the snapshot it would write.
  - A falsy but present status (such as an empty string) is not representable. A stored status is either missing or one of the four statuses.
- `prompt`/`confirm` dialogs and the admin-password check are not modelled. Authorisation, confirmation and edit mode are boolean inputs of `DeleteBill` and `ClearAllBillingData`.
  - Switching edit mode off after a purge is not modelled, since edit mode is an input.
  - `toggleEditMode` is not modelled.
- The PDF drawing is not modelled: fonts, coordinates, page breaks and the file download. Date parsing and locale formatting are not modelled either; the day bounds are given integers.
- Restaurant.AppState.DeleteBill: the bill is named by its id, not by its position in the newest-first display order.
  - So the source's sorted-index lookup is not modelled.
  - Its silent no-op when `findIndex` misses after confirmation cannot happen here, because the id was found before confirmation.
- The kitchen view's status filter (`filterKitchenOrders`, `currentFilter`) is not kept in the state. It only matters to the render, as its `showAll` input. Neither is the newest-first sorting of bills for display, `clearAllTableStatuses`, or `switchView`.
- `Date.now()` ids and timestamps are replaced by `clock`, which ticks once per created order or bill. An order's or bill's id and timestamp are the same tick.
  - In the source two calls within one millisecond can give equal ids.
  - In the model ids grow strictly, and uniqueness is an invariant each action preserves.
  - Data loaded from storage may carry duplicates, so uniqueness is not assumed at boot.
  - At boot the clock starts above every loaded id and timestamp, as the wall clock after a reload reads later than anything saved. Data saved under a clock that was later set back is not modelled.
- Restaurant.AppState.UpdateOrderStatus: the source accepts any status, and so does the model.
  - The one-stage advance is stated for the two steps the order cards offer.
  - The badge-preserving property is stated for steps between non-served statuses.
  - Neither is imposed as a precondition.
- Restaurant.AppState.SelectTable requires a positive table number. Every later check in the source tests `!currentTable`, so a table 0 would read as "no table". The grid draws tables 1 to 8.
- Restaurant.AppState.ConfirmTableVacation: ids staying distinct and the other tables' orders and badges are stated once, in `Restaurant.ConfirmFacts`, over the same values the method assigns. They are not repeated in the method's own postcondition.
- Orders, bills and previews are values, not shared objects.
  - In the source, the staged preview and the queue share order objects, so a status change between staging and confirming would show in the archived bill.
  - The model archives the preview as staged.
  - The same sharing lets `markReadyItemsServed` write through a filtered array; the model writes the queue directly.
- The draft record's `table` field is not kept. A draft is just its item list, keyed by table. So the missing-draft and missing-items checks in `sendToKitchen` reduce to the empty-draft check under the class invariant.
- Bills read back from storage are not migrated, and neither are the orders they hold. The source does not migrate them either.
- No action ever writes `vacated`, so the model proves that no action introduces it. Its only reader, the revival in `selectTable`, is modelled as written.

=== FILE: grouping.dfy ===
/** Grouping a list of items by id, with a quantity per group, and the totals
    the views compute over it.  A draft or an order stores one entry per item
    added (duplicates allowed); every view groups on demand.  The grouping is a
    JS object keyed by the item id; ids are array-index keys (see ItemId), which
    enumerate in ascending numeric order, so the grouped lines here are kept
    ascending by id. */
module Grouping {
  import opened Types

  /** Ids strictly ascending, hence pairwise distinct. */
  predicate Ascending(lines: seq<Line>) {
    forall i, j :: 0 <= i < j < |lines| ==> lines[i].item.id < lines[j].item.id
  }

  /** One step of the grouping loop: bump the quantity of the line with the
      item's id, or add a line with quantity 1 holding a copy of the item. */
  function AddItem(lines: seq<Line>, it: MenuItem): (r: seq<Line>)
    ensures |r| > 0
    ensures r[0].item.id == if lines == [] || it.id < lines[0].item.id then it.id else lines[0].item.id
    ensures Ascending(lines) ==> Ascending(r)
  {
    if lines == [] then [Line(it, 1)]
    else if it.id == lines[0].item.id then [lines[0].(quantity := lines[0].quantity + 1)] + lines[1..]
    else if it.id < lines[0].item.id then [Line(it, 1)] + lines
    else [lines[0]] + AddItem(lines[1..], it)
  }

  /** The grouping of a whole item list, built item by item from the first. */
  function Group(items: seq<MenuItem>): (r: seq<Line>)
    ensures Ascending(r)
    decreases |items|
  {
    if items == [] then [] else AddItem(Group(items[..|items| - 1]), items[|items| - 1])
  }

  /** The line with the given id, if any. */
  function Lookup(lines: seq<Line>, id: int): Option<Line> {
    if lines == [] then None
    else if lines[0].item.id == id then Some(lines[0])
    else Lookup(lines[1..], id)
  }

  /** How many items carry the given id. */
  function CountId(items: seq<MenuItem>, id: int): nat
    decreases |items|
  {
    if items == [] then 0
    else CountId(items[..|items| - 1], id) + (if items[|items| - 1].id == id then 1 else 0)
  }

  lemma {:induction false} CountIdZero(items: seq<MenuItem>, id: int)
    ensures CountId(items, id) == 0 <==> forall j :: 0 <= j < |items| ==> items[j].id != id
    decreases |items|
  {
    if items != [] {
      var n := |items| - 1;
      CountIdZero(items[..n], id);
      assert forall j :: 0 <= j < n ==> items[..n][j] == items[j];
    }
  }

  /** The position of the first item carrying the given id. */
  function FirstIndex(items: seq<MenuItem>, id: int): (k: nat)
    requires CountId(items, id) > 0
    ensures k < |items| && items[k].id == id
    ensures forall j :: 0 <= j < k ==> items[j].id != id
    decreases |items|
  {
    var n := |items| - 1;
    if CountId(items[..n], id) > 0 then
      var k := FirstIndex(items[..n], id);
      assert items[..n][k] == items[k];
      assert forall j :: 0 <= j < k ==> items[..n][j] == items[j];
      k
    else
      CountIdZero(items[..n], id);
      assert forall j :: 0 <= j < n ==> items[..n][j] == items[j];
      n
  }

  /** Running sum of item prices, as the vacation preview accumulates it. */
  function PriceSum(items: seq<MenuItem>): int
    decreases |items|
  {
    if items == [] then 0 else PriceSum(items[..|items| - 1]) + items[|items| - 1].price
  }

  function QuantitySum(lines: seq<Line>): nat {
    if lines == [] then 0 else lines[0].quantity + QuantitySum(lines[1..])
  }

  /** Sum of price * quantity over the lines, as the views show it. */
  function LinesTotal(lines: seq<Line>): int {
    if lines == [] then 0 else lines[0].item.price * lines[0].quantity + LinesTotal(lines[1..])
  }

  /** Items that share an id share a price (true of copies of one menu entry). */
  predicate ConsistentPrices(items: seq<MenuItem>) {
    forall i, j :: 0 <= i < |items| && 0 <= j < |items| && items[i].id == items[j].id ==>
      items[i].price == items[j].price
  }

  lemma {:induction false} LookupBelowHead(lines: seq<Line>, id: int)
    requires Ascending(lines) && lines != [] && id < lines[0].item.id
    ensures Lookup(lines, id) == None
    decreases |lines|
  {
    if |lines| > 1 {
      LookupBelowHead(lines[1..], id);
    }
  }

  /** Adding an item bumps exactly the line with its id, or adds a fresh line
      for it; every other id is looked up as before. */
  lemma {:induction false} AddItemLookup(lines: seq<Line>, it: MenuItem, id: int)
    requires Ascending(lines)
    ensures Lookup(AddItem(lines, it), id) ==
      if id != it.id then Lookup(lines, id)
      else match Lookup(lines, id)
        case None => Some(Line(it, 1))
        case Some(l) => Some(l.(quantity := l.quantity + 1))
    decreases |lines|
  {
    if lines != [] && it.id != lines[0].item.id {
      if it.id < lines[0].item.id {
        if id == it.id {
          LookupBelowHead(lines, id);
        }
      } else {
        AddItemLookup(lines[1..], it, id);
      }
    }
  }

  /** Adding an item raises the quantity sum by one and the total by the price
      of the line it joins (its own price when it starts a new line). */
  lemma {:induction false} AddItemSums(lines: seq<Line>, it: MenuItem)
    requires Ascending(lines)
    ensures QuantitySum(AddItem(lines, it)) == QuantitySum(lines) + 1
    ensures LinesTotal(AddItem(lines, it)) == LinesTotal(lines) +
      match Lookup(lines, it.id)
        case None => it.price
        case Some(l) => l.item.price
    decreases |lines|
  {
    if lines == [] {
    } else if it.id == lines[0].item.id {
      var r := AddItem(lines, it);
      assert r[1..] == lines[1..];
    } else if it.id < lines[0].item.id {
      LookupBelowHead(lines, it.id);
      var r := AddItem(lines, it);
      assert r[1..] == lines;
    } else {
      AddItemSums(lines[1..], it);
      var r := AddItem(lines, it);
      assert r[1..] == AddItem(lines[1..], it);
    }
  }

  lemma GroupSnoc(items: seq<MenuItem>, it: MenuItem)
    ensures Group(items + [it]) == AddItem(Group(items), it)
    ensures CountId(items + [it], it.id) == CountId(items, it.id) + 1
    ensures PriceSum(items + [it]) == PriceSum(items) + it.price
  {
    assert (items + [it])[..|items|] == items;
  }

  /** Grouping is exact: an id has a line iff some item carries it, and that
      line holds a copy of the FIRST such item with the number of such items
      as its quantity. */
  lemma {:induction false} GroupLookup(items: seq<MenuItem>, id: int)
    ensures Lookup(Group(items), id) ==
      if CountId(items, id) == 0 then None
      else Some(Line(items[FirstIndex(items, id)], CountId(items, id)))
    decreases |items|
  {
    if items != [] {
      var n := |items| - 1;
      var p, x := items[..n], items[n];
      assert items == p + [x];
      GroupLookup(p, id);
      AddItemLookup(Group(p), x, id);
      if CountId(p, id) > 0 {
        assert items[FirstIndex(p, id)] == p[FirstIndex(p, id)];
      }
    }
  }

  /** The quantities of the grouped lines add up to the number of items. */
  lemma {:induction false} GroupQuantitySum(items: seq<MenuItem>)
    ensures QuantitySum(Group(items)) == |items|
    decreases |items|
  {
    if items != [] {
      var n := |items| - 1;
      GroupQuantitySum(items[..n]);
      AddItemSums(Group(items[..n]), items[n]);
    }
  }

  /** When items with the same id have the same price, the grouped total
      (sum of price * quantity) equals the plain sum of the item prices: the
      preview's running grandTotal and the views' totals agree. */
  lemma {:induction false} GroupTotal(items: seq<MenuItem>)
    requires ConsistentPrices(items)
    ensures LinesTotal(Group(items)) == PriceSum(items)
    decreases |items|
  {
    if items != [] {
      var n := |items| - 1;
      var p, x := items[..n], items[n];
      assert ConsistentPrices(p) by {
        assert forall j :: 0 <= j < n ==> p[j] == items[j];
      }
      GroupTotal(p);
      AddItemSums(Group(p), x);
      assert Lookup(Group(p), x.id).Some? ==> Lookup(Group(p), x.id).value.item.price == x.price by {
        GroupLookup(p, x.id);
        if CountId(p, x.id) > 0 {
          var f := FirstIndex(p, x.id);
          assert items[f] == p[f];
        }
      }
    }
  }

  /** Without consistent prices the two totals part: two copies of one item
      saved at different prices (a draft kept across a menu price change) group
      into one line at the first price, so price * quantity gives 340 while the
      running price sum gives 350. */
  lemma MixedPricesDiverge(older: MenuItem, newer: MenuItem)
    requires older == MenuItem(1, "Chicken Wings", 170, Starters)
    requires newer == MenuItem(1, "Chicken Wings", 180, Starters)
    ensures Group([older, newer]) == [Line(older, 2)]
    ensures LinesTotal(Group([older, newer])) == 340 && PriceSum([older, newer]) == 350
  {
    GroupSnoc([], older);
    assert [] + [older] == [older];
    GroupSnoc([older], newer);
    assert [older] + [newer] == [older, newer];
    assert [older, newer][..1] == [older];
    assert PriceSum([older]) == 170;
  }

  lemma {:induction false} LinesTotalAppend(a: seq<Line>, b: seq<Line>)
    ensures LinesTotal(a + b) == LinesTotal(a) + LinesTotal(b)
    decreases |a|
  {
    if a == [] {
      assert a + b == b;
    } else {
      assert (a + b)[0] == a[0] && (a + b)[1..] == a[1..] + b;
      LinesTotalAppend(a[1..], b);
    }
  }

  /** The price * quantity loop of a view: the total of a list of lines. */
  method Subtotal(lines: seq<Line>) returns (total: int)
    ensures total == LinesTotal(lines)
  {
    total := 0;
    for k := 0 to |lines|
      invariant total == LinesTotal(lines[..k])
    {
      assert lines[..k + 1] == lines[..k] + [lines[k]];
      LinesTotalAppend(lines[..k], [lines[k]]);
      total := total + lines[k].item.price * lines[k].quantity;
    }
    assert lines[..|lines|] == lines;
  }

  /** What the order summary and the order cards compute: the items grouped
      by id and the sum of price * quantity over the groups. */
  method SummarizeItems(items: seq<MenuItem>) returns (lines: seq<Line>, total: int)
    ensures lines == Group(items)
    ensures total == LinesTotal(lines)
  {
    lines := [];
    for i := 0 to |items|
      invariant lines == Group(items[..i])
    {
      assert items[..i + 1] == items[..i] + [items[i]];
      GroupSnoc(items[..i], items[i]);
      lines := AddItem(lines, items[i]);
    }
    assert items[..|items|] == items;
    total := Subtotal(lines);
  }
}

=== FILE: kitchen.dfy ===
/** The kitchen queue seen as a value: the per-table filters, the counts that
    drive the table badges and action buttons, the status state machine and the
    migration applied to orders read back from storage. */
module Kitchen {
  import opened Types

  /** orders.filter(o => o.table === t) */
  function OrdersOf(os: seq<KitchenOrder>, t: int): (r: seq<KitchenOrder>)
    ensures forall o :: o in r <==> o in os && o.table == t
    ensures |r| <= |os|
  {
    if os == [] then [] else (if os[0].table == t then [os[0]] else []) + OrdersOf(os[1..], t)
  }

  /** orders.filter(o => o.table !== t): what stays queued once t is vacated. */
  function RemoveTable(os: seq<KitchenOrder>, t: int): (r: seq<KitchenOrder>)
    ensures forall o :: o in r <==> o in os && o.table != t
    ensures |r| <= |os|
  {
    if os == [] then [] else (if os[0].table != t then [os[0]] else []) + RemoveTable(os[1..], t)
  }

  /** The badge on a table button: its orders whose status is not "served". */
  function ActiveOrderCount(os: seq<KitchenOrder>, t: int): nat {
    if os == [] then 0
    else (if os[0].table == t && os[0].status != Served then 1 else 0) + ActiveOrderCount(os[1..], t)
  }

  /** The number of the table's orders whose status is "ready". */
  function ReadyCount(os: seq<KitchenOrder>, t: int): nat {
    if os == [] then 0
    else (if os[0].table == t && os[0].status == Ready then 1 else 0) + ReadyCount(os[1..], t)
  }

  /** Enables "mark served": some order of the table is ready. */
  predicate HasReadyOrders(os: seq<KitchenOrder>, t: int) {
    exists k :: 0 <= k < |os| && os[k].table == t && os[k].status == Ready
  }

  /** Enables "vacate table": the table has at least one order. */
  predicate HasAnyOrders(os: seq<KitchenOrder>, t: int) {
    |OrdersOf(os, t)| > 0
  }

  /** The stage of a status along pending -> preparing -> ready -> served. */
  function Rank(s: Status): nat {
    match s
    case Pending => 0
    case Preparing => 1
    case Ready => 2
    case Served => 3
  }

  /** The transitions the order cards offer: "Preparing" is enabled only on a
      pending order and "Ready" only on a preparing one. */
  predicate UiTransition(from: Status, to: Status)
    ensures UiTransition(from, to) ==> Rank(to) == Rank(from) + 1 && to != Served
  {
    (from == Pending && to == Preparing) || (from == Preparing && to == Ready)
  }

  /** One order as markReadyItemsServed leaves it. */
  function ServeOne(o: KitchenOrder, t: int): (r: KitchenOrder)
    ensures r == o || (o.table == t && o.status == Ready && r == o.(status := Served))
    ensures r.table == t ==> r.status != Ready
  {
    if o.table == t && o.status == Ready then o.(status := Served) else o
  }

  /** The queue after every ready order of table t became served. */
  function ServeReady(os: seq<KitchenOrder>, t: int): (r: seq<KitchenOrder>)
    ensures |r| == |os|
  {
    seq(|os|, k requires 0 <= k < |os| => ServeOne(os[k], t))
  }

  /** orders.find(o => o.id === id), as a position. */
  function FindOrder(os: seq<KitchenOrder>, id: int): Option<nat> {
    FirstWith(os, (o: KitchenOrder) => o.id, id)
  }

  predicate UniqueIds(os: seq<KitchenOrder>) {
    forall i, j :: 0 <= i < j < |os| ==> os[i].id != os[j].id
  }

  /** Timestamps never rise along the queue: newest first. */
  predicate NewestFirstOrder(os: seq<KitchenOrder>) {
    forall i, j :: 0 <= i < j < |os| ==> os[i].timestamp >= os[j].timestamp
  }

  /** Puts o into a newest-first queue after every order at least as new, so
      that orders with equal timestamps keep their relative order. */
  function Place(os: seq<KitchenOrder>, o: KitchenOrder): (r: seq<KitchenOrder>)
    ensures |r| == |os| + 1
  {
    if os == [] then [o]
    else if os[0].timestamp < o.timestamp then [o] + os
    else [os[0]] + Place(os[1..], o)
  }

  /** The kitchen view's stable `sort((a, b) => b.timestamp - a.timestamp)`. */
  function NewestFirst(os: seq<KitchenOrder>): (r: seq<KitchenOrder>)
    ensures |r| == |os|
    decreases |os|
  {
    if os == [] then [] else Place(NewestFirst(os[..|os| - 1]), os[|os| - 1])
  }

  function Reverse(os: seq<KitchenOrder>): (r: seq<KitchenOrder>)
    ensures |r| == |os|
    decreases |os|
  {
    if os == [] then [] else [os[|os| - 1]] + Reverse(os[..|os| - 1])
  }

  lemma {:induction false} PlaceMembers(os: seq<KitchenOrder>, o: KitchenOrder)
    ensures forall p :: p in Place(os, o) <==> p in os || p == o
    ensures multiset(Place(os, o)) == multiset(os) + multiset{o}
    decreases |os|
  {
    if os != [] {
      PlaceMembers(os[1..], o);
      assert os == [os[0]] + os[1..];
    }
  }

  lemma {:induction false} PlaceCounts(os: seq<KitchenOrder>, o: KitchenOrder, t: int)
    ensures ActiveOrderCount(Place(os, o), t) == ActiveOrderCount(os, t) + ActiveOrderCount([o], t)
    ensures ReadyCount(Place(os, o), t) == ReadyCount(os, t) + ReadyCount([o], t)
    decreases |os|
  {
    assert [o][1..] == [];
    if os != [] {
      if os[0].timestamp < o.timestamp {
        assert ([o] + os)[1..] == os;
      } else {
        PlaceCounts(os[1..], o, t);
        assert ([os[0]] + Place(os[1..], o))[1..] == Place(os[1..], o);
      }
    }
  }

  lemma {:induction false} PlaceSorted(os: seq<KitchenOrder>, o: KitchenOrder)
    requires NewestFirstOrder(os)
    ensures NewestFirstOrder(Place(os, o))
    decreases |os|
  {
    if os != [] {
      SortedTail(os);
      if os[0].timestamp < o.timestamp {
        SortedCons(o, os);
      } else {
        PlaceSorted(os[1..], o);
        PlaceBound(os[1..], o, os[0].timestamp);
        SortedCons(os[0], Place(os[1..], o));
      }
    }
  }

  lemma SortedTail(os: seq<KitchenOrder>)
    requires NewestFirstOrder(os) && os != []
    ensures NewestFirstOrder(os[1..])
    ensures forall k :: 0 <= k < |os[1..]| ==> os[1..][k].timestamp <= os[0].timestamp
  {
    assert forall k :: 0 <= k < |os[1..]| ==> os[1..][k] == os[k + 1];
  }

  lemma SortedCons(x: KitchenOrder, rest: seq<KitchenOrder>)
    requires NewestFirstOrder(rest)
    requires forall k :: 0 <= k < |rest| ==> rest[k].timestamp <= x.timestamp
    ensures NewestFirstOrder([x] + rest)
  {
    var r := [x] + rest;
    forall i, j | 0 <= i < j < |r| ensures r[i].timestamp >= r[j].timestamp {
      assert r[j] == rest[j - 1];
      if i > 0 {
        assert r[i] == rest[i - 1];
      }
    }
  }

  lemma {:induction false} PlaceBound(os: seq<KitchenOrder>, o: KitchenOrder, h: int)
    requires forall k :: 0 <= k < |os| ==> os[k].timestamp <= h
    requires o.timestamp <= h
    ensures forall k :: 0 <= k < |Place(os, o)| ==> Place(os, o)[k].timestamp <= h
    decreases |os|
  {
    if os != [] && os[0].timestamp >= o.timestamp {
      assert forall k :: 0 <= k < |os[1..]| ==> os[1..][k] == os[k + 1];
      PlaceBound(os[1..], o, h);
      var r := Place(os, o);
      assert forall k :: 1 <= k < |r| ==> r[k] == Place(os[1..], o)[k - 1];
    }
  }

  lemma {:induction false} PlaceKeepsUnique(os: seq<KitchenOrder>, o: KitchenOrder)
    requires UniqueIds(os) && forall p :: p in os ==> p.id != o.id
    ensures UniqueIds(Place(os, o))
    decreases |os|
  {
    if os != [] {
      if os[0].timestamp < o.timestamp {
        ConsUnique(o, os);
      } else {
        UniqueTail(os);
        PlaceKeepsUnique(os[1..], o);
        PlaceMembers(os[1..], o);
        assert os[0] in os;
        ConsUnique(os[0], Place(os[1..], o));
      }
    }
  }

  lemma UniqueTail(os: seq<KitchenOrder>)
    requires UniqueIds(os) && os != []
    ensures UniqueIds(os[1..])
    ensures forall q :: q in os[1..] ==> q.id != os[0].id
  {
    assert forall k :: 0 <= k < |os[1..]| ==> os[1..][k] == os[k + 1];
  }

  lemma ConsUnique(x: KitchenOrder, rest: seq<KitchenOrder>)
    requires UniqueIds(rest) && forall q :: q in rest ==> q.id != x.id
    ensures UniqueIds([x] + rest)
  {
    var r := [x] + rest;
    forall i, j | 0 <= i < j < |r| ensures r[i].id != r[j].id {
      assert r[j] == rest[j - 1] && rest[j - 1] in rest;
      if i > 0 {
        assert r[i] == rest[i - 1];
      }
    }
  }

  lemma {:induction false} NewestFirstSorted(os: seq<KitchenOrder>)
    ensures NewestFirstOrder(NewestFirst(os))
    decreases |os|
  {
    if os != [] {
      var n := |os| - 1;
      NewestFirstSorted(os[..n]);
      PlaceSorted(NewestFirst(os[..n]), os[n]);
    }
  }

  lemma {:induction false} NewestFirstSame(os: seq<KitchenOrder>)
    ensures multiset(NewestFirst(os)) == multiset(os)
    decreases |os|
  {
    if os != [] {
      var n := |os| - 1;
      NewestFirstSame(os[..n]);
      PlaceMembers(NewestFirst(os[..n]), os[n]);
      assert os == os[..n] + [os[n]];
    }
  }

  lemma {:induction false} NewestFirstCounts(os: seq<KitchenOrder>, t: int)
    ensures ActiveOrderCount(NewestFirst(os), t) == ActiveOrderCount(os, t)
    ensures ReadyCount(NewestFirst(os), t) == ReadyCount(os, t)
    decreases |os|
  {
    if os != [] {
      var n := |os| - 1;
      NewestFirstCounts(os[..n], t);
      PlaceCounts(NewestFirst(os[..n]), os[n], t);
      assert os == os[..n] + [os[n]];
      ActiveOrderCountAppend(os[..n], [os[n]], t);
      ReadyCountAppend(os[..n], [os[n]], t);
    }
  }

  /** Rendering the kitchen queue reorders it newest first and keeps exactly
      the same orders, so no table's badge or ready count moves. */
  lemma NewestFirstFacts(os: seq<KitchenOrder>, t: int)
    ensures NewestFirstOrder(NewestFirst(os))
    ensures multiset(NewestFirst(os)) == multiset(os)
    ensures ActiveOrderCount(NewestFirst(os), t) == ActiveOrderCount(os, t)
    ensures ReadyCount(NewestFirst(os), t) == ReadyCount(os, t)
  {
    NewestFirstSorted(os);
    NewestFirstSame(os);
    NewestFirstCounts(os, t);
  }

  /** A queue already newest first is left as it is: rendering twice reorders
      nothing the second time. */
  lemma {:induction false} NewestFirstKeepsSorted(os: seq<KitchenOrder>)
    requires NewestFirstOrder(os)
    ensures NewestFirst(os) == os
    decreases |os|
  {
    if os != [] {
      var n := |os| - 1;
      assert NewestFirstOrder(os[..n]);
      NewestFirstKeepsSorted(os[..n]);
      PlaceLast(os[..n], os[n]);
      assert os[..n] + [os[n]] == os;
    }
  }

  lemma {:induction false} PlaceLast(os: seq<KitchenOrder>, o: KitchenOrder)
    requires forall k :: 0 <= k < |os| ==> os[k].timestamp >= o.timestamp
    ensures Place(os, o) == os + [o]
    decreases |os|
  {
    if os != [] {
      PlaceLast(os[1..], o);
      assert os == [os[0]] + os[1..];
    }
  }

  /** The orders carrying timestamp ts, in queue order. */
  function StampedAt(os: seq<KitchenOrder>, ts: int): seq<KitchenOrder> {
    if os == [] then [] else (if os[0].timestamp == ts then [os[0]] else []) + StampedAt(os[1..], ts)
  }

  lemma {:induction false} StampedAtAppend(xs: seq<KitchenOrder>, ys: seq<KitchenOrder>, ts: int)
    ensures StampedAt(xs + ys, ts) == StampedAt(xs, ts) + StampedAt(ys, ts)
    decreases |xs|
  {
    if xs != [] {
      StampedAtAppend(xs[1..], ys, ts);
      assert (xs + ys)[1..] == xs[1..] + ys;
    } else {
      assert xs + ys == ys;
    }
  }

  lemma {:induction false} StampedAtNone(os: seq<KitchenOrder>, ts: int)
    requires forall k :: 0 <= k < |os| ==> os[k].timestamp < ts
    ensures StampedAt(os, ts) == []
    decreases |os|
  {
    if os != [] {
      assert forall k :: 0 <= k < |os[1..]| ==> os[1..][k] == os[k + 1];
      StampedAtNone(os[1..], ts);
    }
  }

  lemma {:induction false} PlaceStable(os: seq<KitchenOrder>, o: KitchenOrder, ts: int)
    requires NewestFirstOrder(os)
    ensures StampedAt(Place(os, o), ts) == StampedAt(os, ts) + (if o.timestamp == ts then [o] else [])
    decreases |os|
  {
    if os == [] {
      assert [o][1..] == [];
    } else if os[0].timestamp < o.timestamp {
      if o.timestamp == ts {
        StampedAtNone(os, ts);
      }
      assert ([o] + os)[1..] == os;
    } else {
      SortedTail(os);
      PlaceStable(os[1..], o, ts);
      assert ([os[0]] + Place(os[1..], o))[1..] == Place(os[1..], o);
    }
  }

  /** The sort is stable: for every timestamp, the orders carrying it come out
      in the order they had in the queue. */
  lemma {:induction false} NewestFirstStable(os: seq<KitchenOrder>, ts: int)
    ensures StampedAt(NewestFirst(os), ts) == StampedAt(os, ts)
    decreases |os|
  {
    if os != [] {
      var n := |os| - 1;
      NewestFirstStable(os[..n], ts);
      NewestFirstSorted(os[..n]);
      PlaceStable(NewestFirst(os[..n]), os[n], ts);
      assert os == os[..n] + [os[n]];
      StampedAtAppend(os[..n], [os[n]], ts);
      assert [os[n]][1..] == [];
    }
  }

  /** An order newer than every queued order, appended and then rendered,
      heads the queue, and behind it the earlier orders are rendered as before. */
  lemma NewestFirstPutsNewerFirst(os: seq<KitchenOrder>, o: KitchenOrder)
    requires forall p :: p in os ==> p.timestamp < o.timestamp
    ensures NewestFirst(os + [o]) == [o] + NewestFirst(os)
  {
    assert (os + [o])[..|os|] == os;
    var r := NewestFirst(os);
    NewestFirstSame(os);
    if r != [] {
      assert r[0] in multiset(os);
    }
  }

  /** Orders stamped in submission order (timestamps strictly rising) are shown
      and stored in exactly the reverse order once rendered. */
  lemma {:induction false} NewestFirstReverses(os: seq<KitchenOrder>)
    requires forall i, j :: 0 <= i < j < |os| ==> os[i].timestamp < os[j].timestamp
    ensures NewestFirst(os) == Reverse(os)
    decreases |os|
  {
    if os != [] {
      var n := |os| - 1;
      NewestFirstReverses(os[..n]);
      if n > 0 {
        assert Reverse(os[..n])[0] == os[n - 1];
      }
    }
  }

  /** Reordering keeps ids unique. */
  lemma {:induction false} NewestFirstKeepsUnique(os: seq<KitchenOrder>)
    requires UniqueIds(os)
    ensures UniqueIds(NewestFirst(os))
    decreases |os|
  {
    if os != [] {
      var n := |os| - 1;
      UniqueSplit(os, n);
      NewestFirstKeepsUnique(os[..n]);
      NewestFirstSame(os[..n]);
      SameMembersAvoidId(os[..n], NewestFirst(os[..n]), os[n].id);
      PlaceKeepsUnique(NewestFirst(os[..n]), os[n]);
    }
  }

  lemma UniqueSplit(os: seq<KitchenOrder>, n: nat)
    requires UniqueIds(os) && n < |os|
    ensures UniqueIds(os[..n])
    ensures forall k :: 0 <= k < n ==> os[..n][k].id != os[n].id
  {
    assert forall k :: 0 <= k < n ==> os[..n][k] == os[k];
  }

  lemma SameMembersAvoidId(a: seq<KitchenOrder>, b: seq<KitchenOrder>, id: int)
    requires multiset(b) == multiset(a)
    requires forall k :: 0 <= k < |a| ==> a[k].id != id
    ensures forall q :: q in b ==> q.id != id
  {
    forall q | q in b ensures q.id != id {
      assert q in multiset(a);
      var k :| 0 <= k < |a| && a[k] == q;
    }
  }

  /** Every item of every order, in queue order then item order. */
  function AllItems(os: seq<KitchenOrder>): seq<MenuItem>
    decreases |os|
  {
    if os == [] then [] else AllItems(os[..|os| - 1]) + os[|os| - 1].items
  }

  lemma AllItemsSnoc(os: seq<KitchenOrder>, o: KitchenOrder)
    ensures AllItems(os + [o]) == AllItems(os) + o.items
  {
    assert (os + [o])[..|os|] == os;
  }

  /** The "mark served" button and the action agree: one tests `some`, the
      other counts the filtered orders. */
  lemma {:induction false} ReadyGate(os: seq<KitchenOrder>, t: int)
    ensures HasReadyOrders(os, t) <==> ReadyCount(os, t) > 0
    decreases |os|
  {
    if os != [] {
      ReadyGate(os[1..], t);
      if HasReadyOrders(os[1..], t) {
        var k :| 0 <= k < |os[1..]| && os[1..][k].table == t && os[1..][k].status == Ready;
        assert os[k + 1] == os[1..][k];
      }
      if HasReadyOrders(os, t) && !(os[0].table == t && os[0].status == Ready) {
        var k :| 0 <= k < |os| && os[k].table == t && os[k].status == Ready;
        assert os[1..][k - 1] == os[k];
      }
    }
  }

  /** The badge counts the table's unserved orders: never fewer than its ready
      ones, never more than all of them, and zero exactly when every order of
      the table has been served. */
  lemma {:induction false} BadgeBounds(os: seq<KitchenOrder>, t: int)
    ensures ReadyCount(os, t) <= ActiveOrderCount(os, t) <= |OrdersOf(os, t)|
    ensures ActiveOrderCount(os, t) == 0 <==> forall o :: o in OrdersOf(os, t) ==> o.status == Served
    decreases |os|
  {
    if os != [] {
      BadgeBounds(os[1..], t);
    }
  }

  /** The orders of table t and those of the other tables partition the queue. */
  lemma {:induction false} PartitionByTable(os: seq<KitchenOrder>, t: int)
    ensures multiset(OrdersOf(os, t)) + multiset(RemoveTable(os, t)) == multiset(os)
    ensures |OrdersOf(os, t)| + |RemoveTable(os, t)| == |os|
    decreases |os|
  {
    if os != [] {
      PartitionByTable(os[1..], t);
      assert os == [os[0]] + os[1..];
    }
  }

  /** Removing a table's orders keeps the others in their relative order. */
  lemma {:induction false} RemoveTableAppend(a: seq<KitchenOrder>, b: seq<KitchenOrder>, t: int)
    ensures RemoveTable(a + b, t) == RemoveTable(a, t) + RemoveTable(b, t)
    decreases |a|
  {
    if a == [] {
      assert a + b == b;
    } else {
      assert (a + b)[0] == a[0] && (a + b)[1..] == a[1..] + b;
      RemoveTableAppend(a[1..], b, t);
    }
  }

  /** Filtering a table's orders distributes over concatenation. */
  lemma {:induction false} OrdersOfAppend(a: seq<KitchenOrder>, b: seq<KitchenOrder>, t: int)
    ensures OrdersOf(a + b, t) == OrdersOf(a, t) + OrdersOf(b, t)
    decreases |a|
  {
    if a == [] {
      assert a + b == b;
    } else {
      assert (a + b)[0] == a[0] && (a + b)[1..] == a[1..] + b;
      OrdersOfAppend(a[1..], b, t);
    }
  }

  /** Submitting an order adds it at the end of its own table's orders (one
      more on the badge if it is not served) and leaves every other table's
      orders as they were. */
  lemma AppendOrderEffect(os: seq<KitchenOrder>, o: KitchenOrder)
    ensures OrdersOf(os + [o], o.table) == OrdersOf(os, o.table) + [o]
    ensures ActiveOrderCount(os + [o], o.table) == ActiveOrderCount(os, o.table) + (if o.status != Served then 1 else 0)
    ensures forall u :: u != o.table ==> OrdersOf(os + [o], u) == OrdersOf(os, u)
  {
    OrdersOfAppend(os, [o], o.table);
    ActiveOrderCountAppend(os, [o], o.table);
    assert ActiveOrderCount([o], o.table) == ActiveOrderCount([o][1..], o.table) + (if o.status != Served then 1 else 0);
    forall u | u != o.table ensures OrdersOf(os + [o], u) == OrdersOf(os, u) {
      OrdersOfAppend(os, [o], u);
      assert OrdersOf([o], u) == OrdersOf([o][1..], u);
      assert os + [] == os;
    }
  }

  /** Once its orders are removed a table has none, while every other table
      keeps exactly its orders (in order) and its badge count. */
  lemma {:induction false} RemoveTableEffect(os: seq<KitchenOrder>, t: int, u: int)
    ensures OrdersOf(RemoveTable(os, t), t) == []
    ensures ActiveOrderCount(RemoveTable(os, t), t) == 0
    ensures u != t ==> OrdersOf(RemoveTable(os, t), u) == OrdersOf(os, u)
    ensures u != t ==> ActiveOrderCount(RemoveTable(os, t), u) == ActiveOrderCount(os, u)
    decreases |os|
  {
    if os != [] {
      RemoveTableEffect(os[1..], t, u);
      if os[0].table != t {
        assert RemoveTable(os, t) == [os[0]] + RemoveTable(os[1..], t);
        assert ([os[0]] + RemoveTable(os[1..], t))[1..] == RemoveTable(os[1..], t);
      } else {
        assert RemoveTable(os, t) == RemoveTable(os[1..], t);
      }
    }
  }

  /** RemoveTableEffect for every other table at once. */
  lemma RemoveTableOthers(os: seq<KitchenOrder>, t: int)
    ensures OrdersOf(RemoveTable(os, t), t) == [] && ActiveOrderCount(RemoveTable(os, t), t) == 0
    ensures forall u :: u != t ==> OrdersOf(RemoveTable(os, t), u) == OrdersOf(os, u)
    ensures forall u :: u != t ==> ActiveOrderCount(RemoveTable(os, t), u) == ActiveOrderCount(os, u)
  {
    RemoveTableEffect(os, t, t);
    forall u | u != t
      ensures OrdersOf(RemoveTable(os, t), u) == OrdersOf(os, u)
      ensures ActiveOrderCount(RemoveTable(os, t), u) == ActiveOrderCount(os, u)
    {
      RemoveTableEffect(os, t, u);
    }
  }

  lemma {:induction false} ActiveOrderCountAppend(a: seq<KitchenOrder>, b: seq<KitchenOrder>, t: int)
    ensures ActiveOrderCount(a + b, t) == ActiveOrderCount(a, t) + ActiveOrderCount(b, t)
    decreases |a|
  {
    if a == [] {
      assert a + b == b;
    } else {
      assert (a + b)[0] == a[0] && (a + b)[1..] == a[1..] + b;
      ActiveOrderCountAppend(a[1..], b, t);
    }
  }

  lemma {:induction false} ReadyCountAppend(a: seq<KitchenOrder>, b: seq<KitchenOrder>, t: int)
    ensures ReadyCount(a + b, t) == ReadyCount(a, t) + ReadyCount(b, t)
    decreases |a|
  {
    if a == [] {
      assert a + b == b;
    } else {
      assert (a + b)[0] == a[0] && (a + b)[1..] == a[1..] + b;
      ReadyCountAppend(a[1..], b, t);
    }
  }

  /** Moving an order between two statuses that both count as active (for
      instance pending -> preparing) leaves every table's badge count alone. */
  lemma {:induction false} ActiveCountSetStatus(os: seq<KitchenOrder>, i: nat, s: Status, u: int)
    requires i < |os| && os[i].status != Served && s != Served
    ensures ActiveOrderCount(os[i := os[i].(status := s)], u) == ActiveOrderCount(os, u)
    decreases i
  {
    var r := os[i := os[i].(status := s)];
    if i == 0 {
      assert r[1..] == os[1..];
    } else {
      assert r[0] == os[0];
      assert r[1..] == os[1..][i - 1 := os[i].(status := s)];
      ActiveCountSetStatus(os[1..], i - 1, s, u);
    }
  }

  /** Serving the ready orders of table t lowers its badge count by exactly the
      number of its ready orders (so it never rises), leaves none of its orders
      ready, and leaves every other table's count alone. */
  lemma {:induction false} ServeReadyCounts(os: seq<KitchenOrder>, t: int, u: int)
    ensures ActiveOrderCount(ServeReady(os, t), t) == ActiveOrderCount(os, t) - ReadyCount(os, t)
    ensures ReadyCount(ServeReady(os, t), t) == 0
    ensures u != t ==> ActiveOrderCount(ServeReady(os, t), u) == ActiveOrderCount(os, u)
    decreases |os|
  {
    if os != [] {
      ServeReadyCounts(os[1..], t, u);
      assert ServeReady(os, t)[1..] == ServeReady(os[1..], t);
      assert ServeReady(os, t)[0] == ServeOne(os[0], t);
    }
  }

  /** With unique ids, `find` hits the one order carrying the id. */
  lemma FindUnique(os: seq<KitchenOrder>, k: nat)
    requires UniqueIds(os) && k < |os|
    ensures FindOrder(os, os[k].id) == Some(k)
  {
  }

  /** Appending an order whose id exceeds every queued id keeps ids unique. */
  lemma AppendFreshKeepsUnique(os: seq<KitchenOrder>, o: KitchenOrder)
    requires UniqueIds(os)
    requires forall p :: p in os ==> p.id < o.id
    ensures UniqueIds(os + [o])
  {
    forall i, j | 0 <= i < j < |os + [o]| ensures (os + [o])[i].id != (os + [o])[j].id {
      if j == |os| {
        assert (os + [o])[i] == os[i] && os[i] in os;
      }
    }
  }

  lemma {:induction false} RemoveTableKeepsUnique(os: seq<KitchenOrder>, t: int)
    requires UniqueIds(os)
    ensures UniqueIds(RemoveTable(os, t))
    decreases |os|
  {
    if os != [] {
      UniqueTail(os);
      RemoveTableKeepsUnique(os[1..], t);
      if os[0].table != t {
        ConsUnique(os[0], RemoveTable(os[1..], t));
      }
    }
  }

  /** An order as stored: a status may be missing in data saved by older versions. */
  datatype StoredOrder = StoredOrder(id: int, table: int, items: seq<MenuItem>, timestamp: int, status: Option<Status>)

  /** The load-time migration: an order with no status gets "pending". */
  function Migrate(o: StoredOrder): (r: KitchenOrder)
    ensures o.status.None? ==> r.status == Pending
    ensures o.status.Some? ==> r.status == o.status.value
    ensures r.id == o.id && r.table == o.table && r.items == o.items && r.timestamp == o.timestamp
  {
    KitchenOrder(o.id, o.table, o.items, o.timestamp, if o.status.Some? then o.status.value else Pending)
  }

  function MigrateAll(os: seq<StoredOrder>): (r: seq<KitchenOrder>)
    ensures |r| == |os|
    ensures forall k :: 0 <= k < |os| ==> r[k] == Migrate(os[k])
  {
    if os == [] then [] else [Migrate(os[0])] + MigrateAll(os[1..])
  }

  /** What saving writes for an order: every field, status included. */
  function Store(o: KitchenOrder): StoredOrder {
    StoredOrder(o.id, o.table, o.items, o.timestamp, Some(o.status))
  }

  /** Saving then loading gives the queue back unchanged: the migration only
      touches orders that lack a status. */
  lemma {:induction false} StoreMigrateRoundTrip(os: seq<KitchenOrder>)
    ensures MigrateAll(seq(|os|, k requires 0 <= k < |os| => Store(os[k]))) == os
  {
    var stored := seq(|os|, k requires 0 <= k < |os| => Store(os[k]));
    var r := MigrateAll(stored);
    assert forall k :: 0 <= k < |os| ==> r[k] == Migrate(Store(os[k])) == os[k];
  }
}

=== FILE: ledger.dfy ===
/** The owner's ledger of archived bills: revenue, lookup by id and splicing
    one bill out. */
module Ledger {
  import opened Types
  import opened Grouping
  import opened Kitchen

  /** bills.reduce((sum, bill) => sum + bill.grandTotal, 0) */
  function Revenue(bills: seq<Bill>): int
    decreases |bills|
  {
    if bills == [] then 0 else Revenue(bills[..|bills| - 1]) + bills[|bills| - 1].grandTotal
  }

  /** Revenue is additive over any split of the ledger, so it can be
      recomputed from the ledger at any time and equals the running sum. */
  lemma {:induction false} RevenueAppend(a: seq<Bill>, b: seq<Bill>)
    ensures Revenue(a + b) == Revenue(a) + Revenue(b)
    decreases |b|
  {
    if b == [] {
      assert a + b == a;
    } else {
      var n := |b| - 1;
      assert (a + b)[..|a + b| - 1] == a + b[..n];
      assert (a + b)[|a + b| - 1] == b[n];
      RevenueAppend(a, b[..n]);
    }
  }

  /** ownerBills.findIndex(b => b.id === id) */
  function FindBill(bills: seq<Bill>, id: int): Option<nat> {
    FirstWith(bills, (b: Bill) => b.id, id)
  }

  /** ownerBills.splice(i, 1): every bill but the i-th, in order. */
  function RemoveAt(bills: seq<Bill>, i: nat): (r: seq<Bill>)
    requires i < |bills|
    ensures |r| == |bills| - 1
    ensures forall k :: 0 <= k < i ==> r[k] == bills[k]
    ensures forall k :: i <= k < |r| ==> r[k] == bills[k + 1]
  {
    bills[..i] + bills[i + 1..]
  }

  predicate UniqueBillIds(bills: seq<Bill>) {
    forall i, j :: 0 <= i < j < |bills| ==> bills[i].id != bills[j].id
  }

  /** Splicing one bill out lowers the revenue by exactly its grand total. */
  lemma RemoveAtRevenue(bills: seq<Bill>, i: nat)
    requires i < |bills|
    ensures Revenue(RemoveAt(bills, i)) == Revenue(bills) - bills[i].grandTotal
  {
    var head, tail := bills[..i + 1], bills[i + 1..];
    assert bills == head + tail;
    assert head[..i] == bills[..i];
    RevenueAppend(head, tail);
    RevenueAppend(bills[..i], tail);
  }

  /** With unique ids, deleting by id removes that bill and only that bill:
      no bill with the id is left and every other bill stays. */
  lemma DeleteByIdExact(bills: seq<Bill>, id: int)
    requires UniqueBillIds(bills) && FindBill(bills, id).Some?
    ensures var r := RemoveAt(bills, FindBill(bills, id).value);
      (forall b :: b in r ==> b.id != id) &&
      (forall b :: b in bills && b.id != id ==> b in r) &&
      UniqueBillIds(r)
  {
    var i := FindBill(bills, id).value;
    var r := RemoveAt(bills, i);
    forall b | b in bills && b.id != id ensures b in r {
      var k :| 0 <= k < |bills| && bills[k] == b;
      if k < i { assert r[k] == b; } else { assert k > i && r[k - 1] == b; }
    }
    forall b | b in r ensures b.id != id {
      var k :| 0 <= k < |r| && r[k] == b;
      if k >= i { assert r[k] == bills[k + 1]; }
    }
  }

  lemma AppendFreshBillKeepsUnique(bills: seq<Bill>, b: Bill)
    requires UniqueBillIds(bills)
    requires forall c :: c in bills ==> c.id < b.id
    ensures UniqueBillIds(bills + [b])
  {
    forall i, j | 0 <= i < j < |bills + [b]| ensures (bills + [b])[i].id != (bills + [b])[j].id {
      if j == |bills| {
        assert (bills + [b])[i] == bills[i] && bills[i] in bills;
      }
    }
  }

  /** A bill as vacation builds it: its lines are the grouping of all items of
      its orders and its grand total is the sum of those items' prices. */
  predicate WellFormedBill(b: Bill) {
    |b.orders| > 0 && b.items == Group(AllItems(b.orders)) && b.grandTotal == PriceSum(AllItems(b.orders))
  }

  /** For such a bill built from menu copies (same id, same price), the stored
      grand total equals the sum of price * quantity over its lines, and the
      quantities count every item of its orders. */
  lemma WellFormedBillTotals(b: Bill)
    requires WellFormedBill(b) && ConsistentPrices(AllItems(b.orders))
    ensures b.grandTotal == LinesTotal(b.items)
    ensures QuantitySum(b.items) == |AllItems(b.orders)|
  {
    GroupTotal(AllItems(b.orders));
    GroupQuantitySum(AllItems(b.orders));
  }
}

=== FILE: menu.dfy ===
/** The fixed menu catalog, loaded once and never edited. */
module Menu {
  import opened Types
  import opened Grouping

  const Catalog: seq<MenuItem> := [
    MenuItem(1, "Chicken Wings", 180, Starters),
    MenuItem(2, "Paneer Tikka", 160, Starters),
    MenuItem(3, "Spring Rolls", 120, Starters),
    MenuItem(4, "Garlic Bread", 100, Starters),
    MenuItem(5, "Butter Chicken", 280, Main),
    MenuItem(6, "Paneer Butter Masala", 240, Main),
    MenuItem(7, "Biryani", 220, Main),
    MenuItem(8, "Pasta Alfredo", 200, Main),
    MenuItem(9, "Coke", 60, Drinks),
    MenuItem(10, "Fresh Lime Soda", 50, Drinks),
    MenuItem(11, "Mango Lassi", 80, Drinks),
    MenuItem(12, "Coffee", 70, Drinks),
    MenuItem(13, "Ice Cream", 90, Desserts),
    MenuItem(14, "Gulab Jamun", 70, Desserts),
    MenuItem(15, "Brownie", 110, Desserts),
    MenuItem(16, "Fruit Salad", 100, Desserts)
  ]

  /** Entry k of the catalog has id k + 1 (so ids are unique and positive) and a
      positive price; the categories come in blocks of four. */
  lemma CatalogWellFormed()
    ensures |Catalog| == 16
    ensures forall k :: 0 <= k < |Catalog| ==> Catalog[k].id == k + 1 && Catalog[k].price > 0
    ensures forall k :: 0 <= k < |Catalog| ==>
      Catalog[k].category == [Starters, Main, Drinks, Desserts][k / 4]
  {
  }

  /** Items copied from the catalog share a price whenever they share an id,
      since catalog ids are distinct: the condition under which a bill's
      running total and its price * quantity lines agree. */
  lemma CatalogCopiesConsistent(items: seq<MenuItem>)
    requires forall it :: it in items ==> it in Catalog
    ensures ConsistentPrices(items)
  {
    CatalogWellFormed();
    forall i, j | 0 <= i < |items| && 0 <= j < |items| && items[i].id == items[j].id
      ensures items[i].price == items[j].price
    {
      assert items[i] in items && items[j] in items;
      var a :| 0 <= a < |Catalog| && Catalog[a] == items[i];
      var b :| 0 <= b < |Catalog| && Catalog[b] == items[j];
    }
  }
}

=== FILE: report.dfy ===
/** The data behind the daily sales report: the bills of one day, grouped by
    table in ascending table order, with a subtotal per table and a grand
    total.  Drawing the PDF is not modelled; day bounds are given integers. */
module Report {
  import opened Types
  import opened Grouping
  import opened Ledger

  /** The bills whose timestamp lies in the inclusive range [dayStart, dayEnd],
      in ledger order. */
  function BillsOnDay(bills: seq<Bill>, dayStart: int, dayEnd: int): (r: seq<Bill>)
    ensures forall b :: b in r <==> b in bills && dayStart <= b.timestamp <= dayEnd
    ensures |r| <= |bills|
  {
    if bills == [] then []
    else (if dayStart <= bills[0].timestamp <= dayEnd then [bills[0]] else []) + BillsOnDay(bills[1..], dayStart, dayEnd)
  }

  /** The day filter keeps the ledger order: filtering a concatenation is the
      concatenation of the filtered parts. */
  lemma {:induction false} BillsOnDayAppend(a: seq<Bill>, b: seq<Bill>, dayStart: int, dayEnd: int)
    ensures BillsOnDay(a + b, dayStart, dayEnd) == BillsOnDay(a, dayStart, dayEnd) + BillsOnDay(b, dayStart, dayEnd)
    decreases |a|
  {
    if a == [] {
      assert a + b == b;
    } else {
      assert (a + b)[0] == a[0] && (a + b)[1..] == a[1..] + b;
      BillsOnDayAppend(a[1..], b, dayStart, dayEnd);
    }
  }

  /** The bills of one table, in order: billsByTable[t] once grouping is done. */
  function BillsOfTable(bills: seq<Bill>, t: int): seq<Bill>
    decreases |bills|
  {
    if bills == [] then []
    else BillsOfTable(bills[..|bills| - 1], t) + (if bills[|bills| - 1].table == t then [bills[|bills| - 1]] else [])
  }

  /** A table's bills are exactly the ledger's bills for that table. */
  lemma {:induction false} BillsOfTableMembers(bills: seq<Bill>, t: int)
    ensures forall b :: b in BillsOfTable(bills, t) <==> b in bills && b.table == t
    decreases |bills|
  {
    if bills != [] {
      var n := |bills| - 1;
      BillsOfTableMembers(bills[..n], t);
      assert bills == bills[..n] + [bills[n]];
    }
  }

  /** The tables that have a bill, each once, in order of their first bill.
      As a key set this is the keys of billsByTable; the object itself lists
      table numbers in ascending order, and the report sorts them anyway. */
  function FirstAppearance(bills: seq<Bill>): (r: seq<int>)
    ensures Distinct(r)
    ensures forall t :: t in r <==> BillsOfTable(bills, t) != []
    decreases |bills|
  {
    if bills == [] then []
    else
      var p := FirstAppearance(bills[..|bills| - 1]);
      var t := bills[|bills| - 1].table;
      FirstAppearanceStep(bills[..|bills| - 1], bills[|bills| - 1], p);
      assert bills[..|bills| - 1] + [bills[|bills| - 1]] == bills;
      if t in p then p else p + [t]
  }

  /** One bill more: its table joins the key list at the end unless it is
      already there, and the list still names exactly the tables with bills. */
  lemma FirstAppearanceStep(init: seq<Bill>, b: Bill, p: seq<int>)
    requires Distinct(p)
    requires forall t :: t in p <==> BillsOfTable(init, t) != []
    ensures var q := if b.table in p then p else p + [b.table];
      Distinct(q) && forall t :: t in q <==> BillsOfTable(init + [b], t) != []
  {
    BillsOfTableSnoc(init, b);
    if b.table !in p {
      var q := p + [b.table];
      forall i, j | 0 <= i < j < |q| ensures q[i] != q[j] {
        if j == |p| {
          assert q[i] == p[i] && p[i] in p;
        }
      }
    }
  }

  lemma BillsOfTableSnoc(bills: seq<Bill>, b: Bill)
    ensures forall t :: BillsOfTable(bills + [b], t) == BillsOfTable(bills, t) + (if b.table == t then [b] else [])
  {
    assert (bills + [b])[..|bills|] == bills;
  }

  /** The billsByTable object after pushing the given bills one by one. */
  function TableGroups(bills: seq<Bill>): map<int, seq<Bill>>
    decreases |bills|
  {
    if bills == [] then map[]
    else
      var m := TableGroups(bills[..|bills| - 1]);
      var b := bills[|bills| - 1];
      m[b.table := (if b.table in m then m[b.table] else []) + [b]]
  }

  /** The grouping loop yields one key per table that has a bill, holding
      exactly that table's bills in ledger order. */
  lemma {:induction false} TableGroupsSpec(bills: seq<Bill>, t: int)
    ensures t in TableGroups(bills) <==> BillsOfTable(bills, t) != []
    ensures t in TableGroups(bills) ==> TableGroups(bills)[t] == BillsOfTable(bills, t)
    decreases |bills|
  {
    if bills != [] {
      var n := |bills| - 1;
      TableGroupsSpec(bills[..n], t);
      BillsOfTableSnoc(bills[..n], bills[n]);
      assert bills[..n] + [bills[n]] == bills;
    }
  }

  lemma TableGroupsAll(bills: seq<Bill>)
    ensures forall t :: t in FirstAppearance(bills) <==> t in TableGroups(bills)
    ensures forall t :: t in TableGroups(bills) ==> TableGroups(bills)[t] == BillsOfTable(bills, t)
  {
    forall t ensures t in TableGroups(bills) <==> BillsOfTable(bills, t) != [] {
      TableGroupsSpec(bills, t);
    }
    forall t | t in TableGroups(bills) ensures TableGroups(bills)[t] == BillsOfTable(bills, t) {
      TableGroupsSpec(bills, t);
    }
  }

  predicate Distinct(ts: seq<int>) {
    forall i, j :: 0 <= i < j < |ts| ==> ts[i] != ts[j]
  }

  predicate StrictlyAscending(ts: seq<int>) {
    forall i, j :: 0 <= i < j < |ts| ==> ts[i] < ts[j]
  }

  /** Puts x into an ascending list at its place. */
  function InsertSorted(xs: seq<int>, x: int): (r: seq<int>)
    requires StrictlyAscending(xs) && x !in xs
    ensures StrictlyAscending(r)
    ensures forall y :: y in r <==> y in xs || y == x
    ensures |r| == |xs| + 1
  {
    if xs == [] || x < xs[0] then
      ConsAscending(x, xs);
      [x] + xs
    else
      var rest := InsertSorted(xs[1..], x);
      ConsAscending(xs[0], rest);
      [xs[0]] + rest
  }

  /** A value below every element of an ascending list can go in front of it. */
  lemma ConsAscending(h: int, xs: seq<int>)
    requires StrictlyAscending(xs)
    requires forall y :: y in xs ==> h < y
    ensures StrictlyAscending([h] + xs)
  {
    var r := [h] + xs;
    forall i, j | 0 <= i < j < |r| ensures r[i] < r[j] {
      if i == 0 {
        assert r[j] == xs[j - 1] && xs[j - 1] in xs;
      } else {
        assert r[i] == xs[i - 1] && r[j] == xs[j - 1];
      }
    }
  }

  /** keys.sort((a, b) => a - b) on distinct table numbers. */
  function SortTables(ts: seq<int>): (r: seq<int>)
    requires Distinct(ts)
    ensures StrictlyAscending(r)
    ensures forall y :: y in r <==> y in ts
    decreases |ts|
  {
    if ts == [] then []
    else
      var n := |ts| - 1;
      assert Distinct(ts[..n]);
      assert ts[n] !in ts[..n];
      assert forall y :: y in ts <==> y in ts[..n] || y == ts[n] by {
        assert ts == ts[..n] + [ts[n]];
      }
      InsertSorted(SortTables(ts[..n]), ts[n])
  }

  /** Sum of price * quantity over every line of every bill. */
  function BillsTotal(bills: seq<Bill>): int
    decreases |bills|
  {
    if bills == [] then 0 else BillsTotal(bills[..|bills| - 1]) + LinesTotal(bills[|bills| - 1].items)
  }

  lemma BillsTotalSnoc(bills: seq<Bill>, b: Bill)
    ensures BillsTotal(bills + [b]) == BillsTotal(bills) + LinesTotal(b.items)
  {
    assert (bills + [b])[..|bills|] == bills;
  }

  /** One table's block of the report: its bills and their subtotal. */
  datatype Section = Section(table: int, bills: seq<Bill>, subtotal: int)

  datatype DailyReport = DailyReport(sections: seq<Section>, grandTotal: int)

  function SectionFor(bills: seq<Bill>, t: int): Section {
    Section(t, BillsOfTable(bills, t), BillsTotal(BillsOfTable(bills, t)))
  }

  /** The sections for the given tables, in that order. */
  function SectionsFor(ts: seq<int>, bills: seq<Bill>): (r: seq<Section>)
    ensures |r| == |ts|
    ensures forall k :: 0 <= k < |ts| ==> r[k] == SectionFor(bills, ts[k])
    ensures forall k :: 0 <= k < |ts| ==> r[k].table == ts[k]
    decreases |ts|
  {
    if ts == [] then [] else SectionsFor(ts[..|ts| - 1], bills) + [SectionFor(bills, ts[|ts| - 1])]
  }

  /** Some section of the report belongs to table t. */
  predicate HasSection(ss: seq<Section>, t: int) {
    exists k :: 0 <= k < |ss| && ss[k].table == t
  }

  /** The report layout: one section per table that has a bill, tables in
      strictly ascending order, each holding exactly that table's bills (never
      none) and their subtotal. */
  function Sections(bills: seq<Bill>): (r: seq<Section>)
    ensures forall i, j :: 0 <= i < j < |r| ==> r[i].table < r[j].table
    ensures forall t :: BillsOfTable(bills, t) != [] <==> HasSection(r, t)
    ensures forall k :: 0 <= k < |r| ==>
      r[k].bills == BillsOfTable(bills, r[k].table) && r[k].bills != [] && r[k].subtotal == BillsTotal(r[k].bills)
  {
    var ts := SortTables(FirstAppearance(bills));
    SectionsLayout(ts, bills);
    SectionsFor(ts, bills)
  }

  /** The sections for an ascending list naming exactly the tables with
      bills have the report's layout. */
  lemma SectionsLayout(ts: seq<int>, bills: seq<Bill>)
    requires StrictlyAscending(ts)
    requires forall t :: t in ts <==> BillsOfTable(bills, t) != []
    ensures forall i, j :: 0 <= i < j < |SectionsFor(ts, bills)| ==>
      SectionsFor(ts, bills)[i].table < SectionsFor(ts, bills)[j].table
    ensures forall t :: BillsOfTable(bills, t) != [] <==> HasSection(SectionsFor(ts, bills), t)
    ensures forall k :: 0 <= k < |SectionsFor(ts, bills)| ==>
      var s := SectionsFor(ts, bills)[k];
      s.bills == BillsOfTable(bills, s.table) && s.bills != [] && s.subtotal == BillsTotal(s.bills)
  {
    var r := SectionsFor(ts, bills);
    SectionsOrdered(ts, bills);
    forall t ensures BillsOfTable(bills, t) != [] <==> HasSection(r, t) {
      if BillsOfTable(bills, t) != [] {
        assert t in ts;
        var k :| 0 <= k < |ts| && ts[k] == t;
        assert r[k].table == t;
      }
      if HasSection(r, t) {
        var k :| 0 <= k < |r| && r[k].table == t;
        assert ts[k] == t && ts[k] in ts;
      }
    }
    SectionsContents(ts, bills);
  }

  /** Sections keep the order of their tables. */
  lemma SectionsOrdered(ts: seq<int>, bills: seq<Bill>)
    requires StrictlyAscending(ts)
    ensures var r := SectionsFor(ts, bills);
      forall i, j :: 0 <= i < j < |r| ==> r[i].table < r[j].table
  {
  }

  /** Each section of a listed table holds its bills, never none. */
  lemma SectionsContents(ts: seq<int>, bills: seq<Bill>)
    requires forall t :: t in ts ==> BillsOfTable(bills, t) != []
    ensures var r := SectionsFor(ts, bills);
      forall k :: 0 <= k < |r| ==>
        r[k].bills == BillsOfTable(bills, r[k].table) && r[k].bills != [] && r[k].subtotal == BillsTotal(r[k].bills)
  {
    var r := SectionsFor(ts, bills);
    forall k | 0 <= k < |r|
      ensures r[k].bills == BillsOfTable(bills, r[k].table) && r[k].bills != []
    {
      assert r[k].table == ts[k] && ts[k] in ts;
    }
  }

  function SectionsTotal(ss: seq<Section>): int
    decreases |ss|
  {
    if ss == [] then 0 else SectionsTotal(ss[..|ss| - 1]) + ss[|ss| - 1].subtotal
  }

  lemma {:induction false} SectionsOfNoBills(ts: seq<int>)
    ensures SectionsTotal(SectionsFor(ts, [])) == 0
    decreases |ts|
  {
    if ts != [] {
      var n := |ts| - 1;
      SectionsOfNoBills(ts[..n]);
      var ss := SectionsFor(ts, []);
      assert ss[..n] == SectionsFor(ts[..n], []);
    }
  }

  lemma SectionsForSnoc(ts: seq<int>, t: int, bills: seq<Bill>)
    ensures SectionsFor(ts + [t], bills) == SectionsFor(ts, bills) + [SectionFor(bills, t)]
    ensures SectionsTotal(SectionsFor(ts + [t], bills)) == SectionsTotal(SectionsFor(ts, bills)) + SectionFor(bills, t).subtotal
  {
    var ss := SectionsFor(ts + [t], bills);
    assert (ts + [t])[..|ts|] == ts;
    assert ss[..|ts|] == SectionsFor(ts, bills);
  }

  lemma SectionsForPrefix(ts: seq<int>, k: nat, bills: seq<Bill>)
    requires k < |ts|
    ensures SectionsFor(ts[..k + 1], bills) == SectionsFor(ts[..k], bills) + [SectionFor(bills, ts[k])]
    ensures SectionsTotal(SectionsFor(ts[..k + 1], bills)) == SectionsTotal(SectionsFor(ts[..k], bills)) + SectionFor(bills, ts[k]).subtotal
  {
    assert ts[..k + 1] == ts[..k] + [ts[k]];
    SectionsForSnoc(ts[..k], ts[k], bills);
  }

  /** Adding one bill adds its total to the subtotal of its own table only. */
  lemma SectionForSnoc(bills: seq<Bill>, b: Bill, t: int)
    ensures SectionFor(bills + [b], t).subtotal ==
      SectionFor(bills, t).subtotal + (if b.table == t then LinesTotal(b.items) else 0)
  {
    BillsOfTableSnoc(bills, b);
    if b.table == t {
      BillsTotalSnoc(BillsOfTable(bills, t), b);
    } else {
      assert BillsOfTable(bills + [b], t) == BillsOfTable(bills, t) + [];
      assert BillsOfTable(bills, t) + [] == BillsOfTable(bills, t);
    }
  }

  /** Adding one bill to the ledger adds its total to exactly the section of
      its table, if that table is listed. */
  lemma {:induction false} SectionsSnocBill(ts: seq<int>, bills: seq<Bill>, b: Bill)
    requires Distinct(ts)
    ensures SectionsTotal(SectionsFor(ts, bills + [b])) ==
      SectionsTotal(SectionsFor(ts, bills)) + (if b.table in ts then LinesTotal(b.items) else 0)
    decreases |ts|
  {
    if ts != [] {
      var n := |ts| - 1;
      var q, t := ts[..n], ts[n];
      assert ts == q + [t];
      assert Distinct(q);
      assert t !in q;
      assert b.table in ts <==> b.table in q || b.table == t;
      SectionsSnocBill(q, bills, b);
      SectionForSnoc(bills, b, t);
      SectionsForSnoc(q, t, bills + [b]);
      SectionsForSnoc(q, t, bills);
    }
  }

  /** Splitting the bills by table and adding up the per-table subtotals gives
      the total of all the bills, as long as every table is listed once. */
  lemma {:induction false} SectionsTotalIsBillsTotal(ts: seq<int>, bills: seq<Bill>)
    requires Distinct(ts)
    requires forall b :: b in bills ==> b.table in ts
    ensures SectionsTotal(SectionsFor(ts, bills)) == BillsTotal(bills)
    decreases |bills|
  {
    if bills == [] {
      SectionsOfNoBills(ts);
    } else {
      var n := |bills| - 1;
      var p, b := bills[..n], bills[n];
      assert bills == p + [b];
      assert b in bills;
      assert forall c :: c in p ==> c in bills;
      SectionsTotalIsBillsTotal(ts, p);
      SectionsSnocBill(ts, p, b);
    }
  }

  /** The report's grand total (sum of table subtotals) is the total of all
      the day's bills; when each bill's stored grandTotal agrees with its lines,
      it is also the revenue of those bills. */
  lemma ReportTotal(bills: seq<Bill>)
    ensures SectionsTotal(Sections(bills)) == BillsTotal(bills)
    ensures (forall b :: b in bills ==> b.grandTotal == LinesTotal(b.items)) ==> BillsTotal(bills) == Revenue(bills)
  {
    var ts := SortTables(FirstAppearance(bills));
    assert Distinct(ts);
    forall b | b in bills ensures b.table in ts {
      BillsOfTableMembers(bills, b.table);
      assert b in BillsOfTable(bills, b.table);
    }
    SectionsTotalIsBillsTotal(ts, bills);
    if forall b :: b in bills ==> b.grandTotal == LinesTotal(b.items) {
      TotalIsRevenue(bills);
    }
  }

  lemma {:induction false} TotalIsRevenue(bills: seq<Bill>)
    requires forall b :: b in bills ==> b.grandTotal == LinesTotal(b.items)
    ensures BillsTotal(bills) == Revenue(bills)
    decreases |bills|
  {
    if bills != [] {
      var n := |bills| - 1;
      assert bills[n] in bills;
      assert forall b :: b in bills[..n] ==> b in bills;
      TotalIsRevenue(bills[..n]);
    }
  }

  lemma GroupStep(bills: seq<Bill>, i: nat)
    requires i < |bills|
    ensures bills[i].table in TableGroups(bills[..i]) <==> bills[i].table in FirstAppearance(bills[..i])
    ensures var m, b := TableGroups(bills[..i]), bills[i];
      TableGroups(bills[..i + 1]) == m[b.table := (if b.table in m then m[b.table] else []) + [b]]
    ensures var p := FirstAppearance(bills[..i]);
      FirstAppearance(bills[..i + 1]) == if bills[i].table in p then p else p + [bills[i].table]
  {
    assert bills[..i + 1][..i] == bills[..i];
    TableGroupsSpec(bills[..i], bills[i].table);
  }

  /** The bucketing loop of the report: push each bill into the list of its
      table, creating the list (and so the key) on the table's first bill. */
  method GroupBillsByTable(bills: seq<Bill>) returns (byTable: map<int, seq<Bill>>, keys: seq<int>)
    ensures keys == FirstAppearance(bills)
    ensures byTable == TableGroups(bills)
    ensures forall t :: t in keys <==> BillsOfTable(bills, t) != []
    ensures forall t :: t in keys <==> t in byTable
    ensures forall t :: t in byTable ==> byTable[t] == BillsOfTable(bills, t)
  {
    byTable, keys := map[], [];
    for i := 0 to |bills|
      invariant byTable == TableGroups(bills[..i])
      invariant keys == FirstAppearance(bills[..i])
    {
      var b := bills[i];
      GroupStep(bills, i);
      var bucket := if b.table in byTable then byTable[b.table] else [];
      if b.table !in byTable {
        keys := keys + [b.table];
      }
      byTable := byTable[b.table := bucket + [b]];
    }
    assert bills[..|bills|] == bills;
    TableGroupsAll(bills);
  }

  /** One table's subtotal: price * quantity over every line of its bills. */
  method TableSubtotal(tableBills: seq<Bill>) returns (tableTotal: int)
    ensures tableTotal == BillsTotal(tableBills)
  {
    tableTotal := 0;
    for j := 0 to |tableBills|
      invariant tableTotal == BillsTotal(tableBills[..j])
    {
      var sub := Subtotal(tableBills[j].items);
      assert tableBills[..j + 1] == tableBills[..j] + [tableBills[j]];
      BillsTotalSnoc(tableBills[..j], tableBills[j]);
      tableTotal := tableTotal + sub;
    }
    assert tableBills[..|tableBills|] == tableBills;
  }

  /** The report body: one section per table in the given order, each with
      the table's bills and their subtotal, and the running grand total. */
  method BuildSections(tables: seq<int>, byTable: map<int, seq<Bill>>, bills: seq<Bill>)
    returns (sections: seq<Section>, grandTotal: int)
    requires forall t :: t in tables ==> t in byTable && byTable[t] == BillsOfTable(bills, t)
    ensures sections == SectionsFor(tables, bills)
    ensures grandTotal == SectionsTotal(sections)
  {
    sections, grandTotal := [], 0;
    for k := 0 to |tables|
      invariant sections == SectionsFor(tables[..k], bills)
      invariant grandTotal == SectionsTotal(sections)
    {
      var t := tables[k];
      var tableBills := byTable[t];
      var tableTotal := TableSubtotal(tableBills);
      SectionsForPrefix(tables, k, bills);
      sections := sections + [Section(t, tableBills, tableTotal)];
      grandTotal := grandTotal + tableTotal;
    }
    assert tables[..|tables|] == tables;
  }

  /** generateDailyReport's data: filter by day, fail when no bill is left,
      bucket the bills by table, walk the tables in ascending order and add
      the table subtotals into the grand total. */
  method BuildDailyReport(bills: seq<Bill>, dayStart: int, dayEnd: int) returns (r: Result<DailyReport>)
    ensures var kept := BillsOnDay(bills, dayStart, dayEnd);
      if kept == [] then r == Err(NoBillsForDay)
      else r == Ok(DailyReport(Sections(kept), BillsTotal(kept)))
  {
    var kept := BillsOnDay(bills, dayStart, dayEnd);
    if kept == [] {
      return Err(NoBillsForDay);
    }
    var byTable, keys := GroupBillsByTable(kept);
    var tables := SortTables(keys);
    var sections, grandTotal := BuildSections(tables, byTable, kept);
    ReportTotal(kept);
    return Ok(DailyReport(sections, grandTotal));
  }
}

=== FILE: restaurant.dfy ===
/** The application state and the actions that change it: picking a table,
    editing its draft, submitting to the kitchen, moving orders through their
    statuses, the two-phase vacation that archives a bill, and the owner's
    ledger maintenance.  Every id and timestamp comes from one counter,
    `clock`, that ticks once per order or bill created. */
module Restaurant {
  import opened Types
  import opened Grouping
  import opened Kitchen
  import opened Ledger

  /** What storage holds: each bucket may be missing (first start, older data). */
  datatype Snapshot = Snapshot(
    currentOrders: Option<map<int, seq<MenuItem>>>,
    kitchenOrders: Option<seq<StoredOrder>>,
    tableStatus: Option<map<int, TableStatus>>,
    ownerBills: Option<seq<Bill>>)

  /** Every order's id and timestamp is below n. */
  predicate OrdersBelow(os: seq<KitchenOrder>, n: int) {
    forall o :: o in os ==> o.id < n && o.timestamp < n
  }

  /** Every bill's id and timestamp is below n. */
  predicate BillsBelow(bills: seq<Bill>, n: int) {
    forall b :: b in bills ==> b.id < n && b.timestamp < n
  }

  function Above(n: int, id: int, timestamp: int): (r: int)
    ensures n <= r && id < r && timestamp < r
  {
    if n <= id || n <= timestamp then (if id < timestamp then timestamp + 1 else id + 1) else n
  }

  /** A counter value strictly above every loaded order and bill id and
      timestamp: the wall clock after a reload reads later than anything
      saved before it. */
  function StampBound(os: seq<KitchenOrder>, bills: seq<Bill>): (n: int)
    ensures OrdersBelow(os, n) && BillsBelow(bills, n)
  {
    if os != [] then
      var n := Above(StampBound(os[1..], bills), os[0].id, os[0].timestamp);
      assert forall o :: o in os ==> o == os[0] || o in os[1..];
      n
    else if bills != [] then
      var n := Above(StampBound([], bills[1..]), bills[0].id, bills[0].timestamp);
      assert forall b :: b in bills ==> b == bills[0] || b in bills[1..];
      n
    else 0
  }

  /** A staged preview as initiateTableVacation builds it. */
  predicate Staged(v: Vacation) {
    |v.orders| > 0 && v.items == Group(AllItems(v.orders)) && v.grandTotal == PriceSum(AllItems(v.orders))
  }

  /** The bill a confirmed preview becomes, stamped with the given id and time. */
  function Archive(v: Vacation, stamp: int): (b: Bill)
    ensures b.table == v.table && b.items == v.items && b.grandTotal == v.grandTotal && b.orders == v.orders
    ensures b.id == stamp && b.timestamp == stamp && b.paymentStatus == PaymentPending
  {
    Bill(stamp, v.table, stamp, v.orders, v.items, v.grandTotal, PaymentPending)
  }

  /** What confirming a staged preview does to the two queues, as values: the
      archived bill is well formed and adds its total to the revenue, the
      table's orders leave the kitchen and the others stay, and every id stays
      below the advanced counter and distinct. */
  lemma ConfirmFacts(os: seq<KitchenOrder>, bills: seq<Bill>, v: Vacation, stamp: int)
    requires OrdersBelow(os, stamp) && BillsBelow(bills, stamp)
    ensures Staged(v) ==> WellFormedBill(Archive(v, stamp))
    ensures Revenue(bills + [Archive(v, stamp)]) == Revenue(bills) + v.grandTotal
    ensures OrdersBelow(RemoveTable(os, v.table), stamp + 1)
    ensures BillsBelow(bills + [Archive(v, stamp)], stamp + 1)
    ensures UniqueIds(os) ==> UniqueIds(RemoveTable(os, v.table))
    ensures UniqueBillIds(bills) ==> UniqueBillIds(bills + [Archive(v, stamp)])
    ensures OrdersOf(RemoveTable(os, v.table), v.table) == [] && ActiveOrderCount(RemoveTable(os, v.table), v.table) == 0
    ensures forall u :: u != v.table ==> OrdersOf(RemoveTable(os, v.table), u) == OrdersOf(os, u)
    ensures forall u :: u != v.table ==> ActiveOrderCount(RemoveTable(os, v.table), u) == ActiveOrderCount(os, u)
  {
    RemoveTableOthers(os, v.table);
    var bill := Archive(v, stamp);
    if UniqueBillIds(bills) {
      AppendFreshBillKeepsUnique(bills, bill);
    }
    if UniqueIds(os) {
      RemoveTableKeepsUnique(os, v.table);
    }
    RevenueAppend(bills, [bill]);
    assert Revenue([bill]) == bill.grandTotal by {
      assert [bill][..0] == [];
    }
    assert forall b :: b in bills + [bill] ==> b in bills || b == bill;
  }

  lemma ExtendPrefix<T>(done: seq<T>, xs: seq<T>, j: nat)
    requires j < |xs|
    ensures done + xs[..j + 1] == (done + xs[..j]) + [xs[j]]
  {
    assert xs[..j + 1] == xs[..j] + [xs[j]];
  }

  /** The inner loop of the preview: the items of one order are added one by
      one to the lines and the running total built so far from `done`. */
  method AddOrderItems(done: seq<MenuItem>, items: seq<MenuItem>, lines0: seq<Line>, total0: int)
    returns (lines: seq<Line>, grandTotal: int)
    requires lines0 == Group(done) && total0 == PriceSum(done)
    ensures lines == Group(done + items) && grandTotal == PriceSum(done + items)
  {
    lines, grandTotal := lines0, total0;
    assert done + items[..0] == done;
    for j := 0 to |items|
      invariant lines == Group(done + items[..j])
      invariant grandTotal == PriceSum(done + items[..j])
    {
      ExtendPrefix(done, items, j);
      GroupSnoc(done + items[..j], items[j]);
      lines := AddItem(lines, items[j]);
      grandTotal := grandTotal + items[j].price;
    }
    assert items[..|items|] == items;
  }

  /** The preview's grouping loop: every item of every order, in order, is
      added to the grouped lines and its price to the running grand total. */
  method BillPreview(tableOrders: seq<KitchenOrder>) returns (lines: seq<Line>, grandTotal: int)
    ensures lines == Group(AllItems(tableOrders))
    ensures grandTotal == PriceSum(AllItems(tableOrders))
  {
    lines, grandTotal := [], 0;
    for i := 0 to |tableOrders|
      invariant lines == Group(AllItems(tableOrders[..i]))
      invariant grandTotal == PriceSum(AllItems(tableOrders[..i]))
    {
      lines, grandTotal := AddOrderItems(AllItems(tableOrders[..i]), tableOrders[i].items, lines, grandTotal);
      assert tableOrders[..i + 1] == tableOrders[..i] + [tableOrders[i]];
      AllItemsSnoc(tableOrders[..i], tableOrders[i]);
    }
    assert tableOrders[..|tableOrders|] == tableOrders;
  }

  /** No table is marked vacated: true right after boot and kept by every action. */
  predicate AllActive(status: map<int, TableStatus>) {
    forall t :: t in status ==> status[t] == Active
  }

  class AppState {
    /** The selected table; table numbers are positive, so none is "no table". */
    var currentTable: Option<int>
    /** The draft cart of each table: one entry per item added. */
    var currentOrders: map<int, seq<MenuItem>>
    var kitchenOrders: seq<KitchenOrder>
    var tableStatus: map<int, TableStatus>
    var ownerBills: seq<Bill>
    var pendingVacation: Option<Vacation>
    /** The next id / timestamp to hand out. */
    var clock: int

    predicate Valid()
      reads this
    {
      (currentTable.Some? ==> currentTable.value in currentOrders) &&
      OrdersBelow(kitchenOrders, clock) &&
      BillsBelow(ownerBills, clock)
    }

    /** The staged preview, if any, is one initiateTableVacation built. */
    predicate PreviewStaged()
      reads this`pendingVacation
    {
      pendingVacation.Some? ==> Staged(pendingVacation.value)
    }

    /** What saving writes: the four persisted buckets, every order with its status. */
    function Save(): (s: Snapshot)
      reads this
      ensures s.currentOrders == Some(currentOrders) && s.tableStatus == Some(tableStatus)
      ensures s.ownerBills == Some(ownerBills)
      ensures s.kitchenOrders.Some? && MigrateAll(s.kitchenOrders.value) == kitchenOrders
    {
      var os := kitchenOrders;
      StoreMigrateRoundTrip(os);
      Snapshot(Some(currentOrders), Some(seq(|os|, k requires 0 <= k < |os| => Store(os[k]))),
               Some(tableStatus), Some(ownerBills))
    }

    /** Boot: load what was saved (a missing bucket gives its empty default),
        give every order lacking a status "pending", then clear every table
        status and start with no table selected. */
    constructor Boot(saved: Option<Snapshot>)
      ensures Valid() && PreviewStaged()
      ensures currentTable == None && pendingVacation == None
      ensures tableStatus == map[] && AllActive(tableStatus)
      ensures clock == StampBound(kitchenOrders, ownerBills)
      ensures saved.None? ==> currentOrders == map[] && kitchenOrders == [] && ownerBills == []
      ensures saved.Some? ==>
        currentOrders == (if saved.value.currentOrders.Some? then saved.value.currentOrders.value else map[]) &&
        kitchenOrders == (if saved.value.kitchenOrders.Some? then MigrateAll(saved.value.kitchenOrders.value) else []) &&
        ownerBills == (if saved.value.ownerBills.Some? then saved.value.ownerBills.value else [])
    {
      var drafts: map<int, seq<MenuItem>> := map[];
      var orders: seq<KitchenOrder> := [];
      var bills: seq<Bill> := [];
      if saved.Some? {
        var s := saved.value;
        drafts := if s.currentOrders.Some? then s.currentOrders.value else map[];
        orders := if s.kitchenOrders.Some? then MigrateAll(s.kitchenOrders.value) else [];
        bills := if s.ownerBills.Some? then s.ownerBills.value else [];
      }
      currentTable := None;
      currentOrders := drafts;
      kitchenOrders := orders;
      tableStatus := map[];
      ownerBills := bills;
      pendingVacation := None;
      clock := StampBound(orders, bills);
    }

    /** Select a table: a vacated table becomes active again and a table
        without a draft gets an empty one. */
    method SelectTable(table: int)
      requires Valid() && table > 0
      modifies this`tableStatus, this`currentTable, this`currentOrders
      ensures Valid()
      ensures currentTable == Some(table) && table in currentOrders
      ensures currentOrders == if table in old(currentOrders) then old(currentOrders) else old(currentOrders)[table := []]
      ensures tableStatus ==
        if table in old(tableStatus) && old(tableStatus)[table] == Vacated then old(tableStatus)[table := Active]
        else old(tableStatus)
      ensures old(AllActive(tableStatus)) ==> AllActive(tableStatus)
    {
      if table in tableStatus && tableStatus[table] == Vacated {
        tableStatus := tableStatus[table := Active];
      }
      currentTable := Some(table);
      if table !in currentOrders {
        currentOrders := currentOrders[table := []];
      }
    }

    /** Append one item to the selected table's draft. */
    method AddItemToOrder(item: MenuItem) returns (out: Outcome)
      requires Valid()
      modifies this`currentOrders
      ensures Valid()
      ensures currentTable.None? ==> out == Fail(NoTableSelected) && currentOrders == old(currentOrders)
      ensures currentTable.Some? ==>
        out == Pass && currentOrders == old(currentOrders)[currentTable.value := old(currentOrders)[currentTable.value] + [item]]
    {
      if currentTable.None? {
        return Fail(NoTableSelected);
      }
      var t := currentTable.value;
      currentOrders := currentOrders[t := currentOrders[t] + [item]];
      return Pass;
    }

    /** Empty the selected table's draft. */
    method ClearOrder() returns (out: Outcome)
      requires Valid()
      modifies this`currentOrders
      ensures Valid()
      ensures currentTable.None? ==> out == Fail(NoTableSelected) && currentOrders == old(currentOrders)
      ensures currentTable.Some? ==> out == Pass && currentOrders == old(currentOrders)[currentTable.value := []]
    {
      if currentTable.None? {
        return Fail(NoTableSelected);
      }
      currentOrders := currentOrders[currentTable.value := []];
      return Pass;
    }

    /** Submit the selected table's draft as one pending kitchen order and
        clear the draft.  The new order is the table's newest and the only
        change to the queue, it is stamped later than every queued order, and
        the table's badge count rises by one. */
    method SendToKitchen() returns (out: Outcome)
      requires Valid()
      modifies this`kitchenOrders, this`currentOrders, this`clock
      ensures Valid()
      ensures currentTable.None? ==> out == Fail(NoTableSelected) && unchanged(this)
      ensures currentTable.Some? && old(currentOrders)[currentTable.value] == [] ==>
        out == Fail(EmptyDraft) && unchanged(this)
      ensures currentTable.Some? && old(currentOrders)[currentTable.value] != [] ==>
        var t := currentTable.value;
        var o := KitchenOrder(old(clock), t, old(currentOrders)[t], old(clock), Pending);
        out == Pass &&
        kitchenOrders == old(kitchenOrders) + [o] &&
        currentOrders == old(currentOrders)[t := []] &&
        clock == old(clock) + 1 &&
        (forall p :: p in old(kitchenOrders) ==> p.timestamp < o.timestamp) &&
        OrdersOf(kitchenOrders, t) == OrdersOf(old(kitchenOrders), t) + [o] &&
        ActiveOrderCount(kitchenOrders, t) == ActiveOrderCount(old(kitchenOrders), t) + 1 &&
        (forall u :: u != t ==> OrdersOf(kitchenOrders, u) == OrdersOf(old(kitchenOrders), u))
      ensures old(UniqueIds(kitchenOrders)) ==> UniqueIds(kitchenOrders)
    {
      if currentTable.None? {
        return Fail(NoTableSelected);
      }
      var t := currentTable.value;
      var draft := currentOrders[t];
      if |draft| == 0 {
        return Fail(EmptyDraft);
      }
      var o := KitchenOrder(clock, t, draft, clock, Pending);
      var before := kitchenOrders;
      if UniqueIds(before) {
        AppendFreshKeepsUnique(before, o);
      }
      AppendOrderEffect(before, o);
      kitchenOrders := kitchenOrders + [o];
      currentOrders := currentOrders[t := []];
      clock := clock + 1;
      return Pass;
    }

    /** Move the order with the given id to a new status.  The order keeps
        its place and every other order is untouched.  When the step is one
        the order cards offer (pending -> preparing, preparing -> ready) the
        order advances one stage and no table's badge count changes. */
    method UpdateOrderStatus(orderId: int, status: Status) returns (out: Outcome)
      requires Valid()
      modifies this`kitchenOrders
      ensures Valid()
      ensures FindOrder(old(kitchenOrders), orderId).None? ==> out == Fail(OrderNotFound) && kitchenOrders == old(kitchenOrders)
      ensures FindOrder(old(kitchenOrders), orderId).Some? ==>
        var i := FindOrder(old(kitchenOrders), orderId).value;
        out == Pass &&
        kitchenOrders == old(kitchenOrders)[i := old(kitchenOrders)[i].(status := status)] &&
        (UiTransition(old(kitchenOrders)[i].status, status) ==>
          Rank(kitchenOrders[i].status) == Rank(old(kitchenOrders)[i].status) + 1) &&
        (old(kitchenOrders)[i].status != Served && status != Served ==>
          forall u :: ActiveOrderCount(kitchenOrders, u) == ActiveOrderCount(old(kitchenOrders), u))
      ensures forall k :: 0 <= k < |kitchenOrders| && kitchenOrders[k].id != orderId ==> kitchenOrders[k] == old(kitchenOrders)[k]
      ensures old(UniqueIds(kitchenOrders)) ==> UniqueIds(kitchenOrders)
    {
      var found := FindOrder(kitchenOrders, orderId);
      if found.None? {
        return Fail(OrderNotFound);
      }
      var i := found.value;
      var before := kitchenOrders;
      if before[i].status != Served && status != Served {
        forall u ensures ActiveOrderCount(before[i := before[i].(status := status)], u) == ActiveOrderCount(before, u) {
          ActiveCountSetStatus(before, i, status, u);
        }
      }
      kitchenOrders := kitchenOrders[i := kitchenOrders[i].(status := status)];
      assert forall k :: 0 <= k < |kitchenOrders| ==> kitchenOrders[k].id == before[k].id;
      return Pass;
    }

    /** Mark every ready order of the selected table as served.  The table's
        badge count drops by the number of those orders, none of its orders is
        left ready, and other tables' counts stay as they were. */
    method MarkReadyItemsServed() returns (out: Outcome)
      requires Valid()
      modifies this`kitchenOrders
      ensures Valid()
      ensures currentTable.None? ==> out == Fail(NoTableSelected) && kitchenOrders == old(kitchenOrders)
      ensures currentTable.Some? && ReadyCount(old(kitchenOrders), currentTable.value) == 0 ==>
        out == Fail(NoReadyOrders) && kitchenOrders == old(kitchenOrders)
      ensures currentTable.Some? && ReadyCount(old(kitchenOrders), currentTable.value) > 0 ==>
        var t := currentTable.value;
        out == Pass &&
        kitchenOrders == ServeReady(old(kitchenOrders), t) &&
        ActiveOrderCount(kitchenOrders, t) == ActiveOrderCount(old(kitchenOrders), t) - ReadyCount(old(kitchenOrders), t) &&
        ReadyCount(kitchenOrders, t) == 0 &&
        (forall u :: u != t ==> ActiveOrderCount(kitchenOrders, u) == ActiveOrderCount(old(kitchenOrders), u))
      ensures forall k :: 0 <= k < |kitchenOrders| ==>
        kitchenOrders[k] == old(kitchenOrders)[k] || kitchenOrders[k] == old(kitchenOrders)[k].(status := Served)
      ensures old(UniqueIds(kitchenOrders)) ==> UniqueIds(kitchenOrders)
    {
      if currentTable.None? {
        return Fail(NoTableSelected);
      }
      var t := currentTable.value;
      if ReadyCount(kitchenOrders, t) == 0 {
        return Fail(NoReadyOrders);
      }
      var before := kitchenOrders;
      var i := 0;
      while i < |kitchenOrders|
        invariant 0 <= i <= |kitchenOrders| == |before|
        invariant forall j :: 0 <= j < i ==> kitchenOrders[j] == ServeOne(before[j], t)
        invariant forall j :: i <= j < |kitchenOrders| ==> kitchenOrders[j] == before[j]
      {
        if kitchenOrders[i].table == t && kitchenOrders[i].status == Ready {
          kitchenOrders := kitchenOrders[i := kitchenOrders[i].(status := Served)];
        }
        i := i + 1;
      }
      assert kitchenOrders == ServeReady(before, t);
      forall u | u != t ensures ActiveOrderCount(kitchenOrders, u) == ActiveOrderCount(before, u) {
        ServeReadyCounts(before, t, u);
      }
      ServeReadyCounts(before, t, t);
      return Pass;
    }

    /** Stage the bill preview of the selected table: all its kitchen orders,
        their items grouped by id, and the sum of the item prices.  Nothing but
        the staged preview changes. */
    method InitiateTableVacation() returns (out: Outcome)
      requires Valid() && PreviewStaged()
      modifies this`pendingVacation
      ensures Valid() && PreviewStaged()
      ensures currentTable.None? ==> out == Fail(NoTableSelected) && pendingVacation == old(pendingVacation)
      ensures currentTable.Some? && !HasAnyOrders(kitchenOrders, currentTable.value) ==>
        out == Fail(NoOrdersForTable) && pendingVacation == old(pendingVacation)
      ensures currentTable.Some? && HasAnyOrders(kitchenOrders, currentTable.value) ==>
        var t := currentTable.value;
        var orders := OrdersOf(kitchenOrders, t);
        out == Pass &&
        pendingVacation == Some(Vacation(t, orders, Group(AllItems(orders)), PriceSum(AllItems(orders))))
    {
      if currentTable.None? {
        return Fail(NoTableSelected);
      }
      var t := currentTable.value;
      var tableOrders := OrdersOf(kitchenOrders, t);
      if |tableOrders| == 0 {
        return Fail(NoOrdersForTable);
      }
      var lines, grandTotal := BillPreview(tableOrders);
      pendingVacation := Some(Vacation(t, tableOrders, lines, grandTotal));
      return Pass;
    }

    /** Dismiss the bill preview. */
    method CloseBillModal()
      requires Valid()
      modifies this`pendingVacation
      ensures Valid() && PreviewStaged() && pendingVacation == None
    {
      pendingVacation := None;
    }

    /** The kitchen view's render, which the source runs on boot and after
        every action that touches the queue. Under the "all" filter the list
        it sorts newest first is the stored queue itself, so the queue is
        reordered in place; under any other filter it sorts a filtered copy
        and the queue stays as it is. Reordering moves no badge and keeps ids
        unique. */
    method RenderKitchenOrders(showAll: bool)
      requires Valid()
      modifies this`kitchenOrders
      ensures Valid()
      ensures kitchenOrders == if showAll then NewestFirst(old(kitchenOrders)) else old(kitchenOrders)
      ensures NewestFirstOrder(kitchenOrders) || !showAll
      ensures forall t :: ActiveOrderCount(kitchenOrders, t) == ActiveOrderCount(old(kitchenOrders), t)
      ensures old(UniqueIds(kitchenOrders)) ==> UniqueIds(kitchenOrders)
    {
      if showAll {
        var before := kitchenOrders;
        forall t ensures ActiveOrderCount(NewestFirst(before), t) == ActiveOrderCount(before, t) {
          NewestFirstFacts(before, t);
        }
        NewestFirstFacts(before, 0);
        forall o | o in NewestFirst(before) ensures o.id < clock && o.timestamp < clock {
          assert o in multiset(before);
        }
        if UniqueIds(before) {
          NewestFirstKeepsUnique(before);
        }
        kitchenOrders := NewestFirst(before);
      }
    }

    /** Archive the staged preview as a bill, make the table active with an
        empty draft, drop its orders from the kitchen queue, discard the
        preview and deselect the table if it is the selected one. */
    method ConfirmTableVacation() returns (out: Outcome)
      requires Valid()
      modifies this`ownerBills, this`tableStatus, this`currentOrders, this`kitchenOrders,
               this`pendingVacation, this`currentTable, this`clock
      ensures Valid() && pendingVacation == None
      ensures old(pendingVacation).None? ==> out == Fail(NoPendingVacation) && unchanged(this)
      ensures old(pendingVacation).Some? ==>
        var v := old(pendingVacation).value;
        out == Pass &&
        ownerBills == old(ownerBills) + [Archive(v, old(clock))] &&
        tableStatus == old(tableStatus)[v.table := Active] &&
        currentOrders == old(currentOrders)[v.table := []] &&
        kitchenOrders == RemoveTable(old(kitchenOrders), v.table) &&
        pendingVacation == None &&
        currentTable == (if old(currentTable) == Some(v.table) then None else old(currentTable)) &&
        clock == old(clock) + 1
      ensures old(AllActive(tableStatus)) ==> AllActive(tableStatus)
    {
      if pendingVacation.None? {
        return Fail(NoPendingVacation);
      }
      var v := pendingVacation.value;
      var bill := Archive(v, clock);
      assert OrdersBelow(RemoveTable(kitchenOrders, v.table), clock + 1) &&
             BillsBelow(ownerBills + [bill], clock + 1) by {
        ConfirmFacts(kitchenOrders, ownerBills, v, clock);
      }
      var drafts := currentOrders[v.table := []];
      var selected := if currentTable == Some(v.table) then None else currentTable;
      assert selected.Some? ==> selected.value in drafts;
      ownerBills := ownerBills + [bill];
      tableStatus := tableStatus[v.table := Active];
      currentOrders := drafts;
      kitchenOrders := RemoveTable(kitchenOrders, v.table);
      pendingVacation := None;
      currentTable := selected;
      clock := clock + 1;
      return Pass;
    }

    /** Delete one bill by id, given the admin check and the confirmation.
        Exactly that entry goes: the ledger shrinks by one and the revenue by
        the bill's grand total. */
    method DeleteBill(billId: int, authorized: bool, confirmed: bool) returns (out: Outcome)
      requires Valid()
      modifies this`ownerBills
      ensures Valid()
      ensures !authorized ==> out == Fail(AuthorizationDenied) && ownerBills == old(ownerBills)
      ensures authorized && FindBill(old(ownerBills), billId).None? ==>
        out == Fail(BillNotFound) && ownerBills == old(ownerBills)
      ensures authorized && FindBill(old(ownerBills), billId).Some? && !confirmed ==>
        out == Fail(NotConfirmed) && ownerBills == old(ownerBills)
      ensures authorized && FindBill(old(ownerBills), billId).Some? && confirmed ==>
        var i := FindBill(old(ownerBills), billId).value;
        out == Pass &&
        ownerBills == RemoveAt(old(ownerBills), i) &&
        |ownerBills| == |old(ownerBills)| - 1 &&
        Revenue(ownerBills) == Revenue(old(ownerBills)) - old(ownerBills)[i].grandTotal
      ensures old(UniqueBillIds(ownerBills)) ==> UniqueBillIds(ownerBills)
    {
      if !authorized {
        return Fail(AuthorizationDenied);
      }
      var found := FindBill(ownerBills, billId);
      if found.None? {
        return Fail(BillNotFound);
      }
      if !confirmed {
        return Fail(NotConfirmed);
      }
      var i := found.value;
      RemoveAtRevenue(ownerBills, i);
      if UniqueBillIds(ownerBills) {
        DeleteByIdExact(ownerBills, billId);
      }
      ownerBills := RemoveAt(ownerBills, i);
      return Pass;
    }

    /** Empty the ledger, given edit mode, the admin check and the confirmation. */
    method ClearAllBillingData(editMode: bool, authorized: bool, confirmed: bool) returns (out: Outcome)
      requires Valid()
      modifies this`ownerBills
      ensures Valid()
      ensures !editMode ==> out == Fail(EditModeInactive) && ownerBills == old(ownerBills)
      ensures editMode && !authorized ==> out == Fail(AuthorizationDenied) && ownerBills == old(ownerBills)
      ensures editMode && authorized && !confirmed ==> out == Fail(NotConfirmed) && ownerBills == old(ownerBills)
      ensures editMode && authorized && confirmed ==> out == Pass && ownerBills == [] && Revenue(ownerBills) == 0
    {
      if !editMode {
        return Fail(EditModeInactive);
      }
      if !authorized {
        return Fail(AuthorizationDenied);
      }
      if !confirmed {
        return Fail(NotConfirmed);
      }
      ownerBills := [];
      return Pass;
    }
  }
}

=== FILE: scenarios.dfy ===
/** Service sequences on a freshly booted state, with the menu's own entries:
    each method's postcondition is what a waiter or the owner sees once the
    sequence is over. */
module Scenarios {
  import opened Types
  import opened Grouping
  import opened Kitchen
  import opened Ledger
  import opened Menu
  import opened Restaurant

  /** A queue holding one order: its table's filters and counts. */
  lemma SingleOrder(o: KitchenOrder)
    ensures OrdersOf([o], o.table) == [o]
    ensures ActiveOrderCount([o], o.table) == if o.status != Served then 1 else 0
    ensures ReadyCount([o], o.table) == if o.status == Ready then 1 else 0
  {
    assert [o][1..] == [];
  }

  /** Two Chicken Wings and a Coke group into two lines worth 420. */
  lemma WingsAndCoke()
    ensures Group([Catalog[0], Catalog[0], Catalog[8]]) == [Line(Catalog[0], 2), Line(Catalog[8], 1)]
    ensures LinesTotal([Line(Catalog[0], 2), Line(Catalog[8], 1)]) == 420
  {
    var wings, coke := Catalog[0], Catalog[8];
    var one, two := [Line(wings, 1)], [Line(wings, 2)];
    GroupSnoc([], wings);
    assert [] + [wings] == [wings];
    assert Group([wings]) == one;
    GroupSnoc([wings], wings);
    assert [wings] + [wings] == [wings, wings];
    assert Group([wings, wings]) == two;
    GroupSnoc([wings, wings], coke);
    assert [wings, wings] + [coke] == [wings, wings, coke];
    assert two[1..] == [];
    assert AddItem(two, coke) == [Line(wings, 2), Line(coke, 1)];
    assert [Line(wings, 2), Line(coke, 1)][1..] == [Line(coke, 1)];
    assert [Line(coke, 1)][1..] == [];
    assert wings.price == 180 && coke.price == 60;
    assert LinesTotal([Line(coke, 1)]) == 60;
    assert LinesTotal([Line(wings, 2), Line(coke, 1)]) == 360 + LinesTotal([Line(coke, 1)]);
  }

  /** Table 3 puts two Chicken Wings and a Coke in its draft and submits it. */
  method TableThreeSubmitted() returns (s: AppState)
    ensures fresh(s) && s.Valid() && s.currentTable == Some(3)
    ensures s.kitchenOrders == [KitchenOrder(0, 3, [Catalog[0], Catalog[0], Catalog[8]], 0, Pending)]
  {
    s := new AppState.Boot(None);
    s.SelectTable(3);
    var r := s.AddItemToOrder(Catalog[0]);
    r := s.AddItemToOrder(Catalog[0]);
    r := s.AddItemToOrder(Catalog[8]);
    assert s.currentOrders[3] == [Catalog[0], Catalog[0], Catalog[8]];
    r := s.SendToKitchen();
  }

  /** The kitchen prepares table 3's order and marks it ready, and the waiter
      serves it: the order card shows Wings x2 and Coke x1 for 420 and the
      table's badge drops to zero. */
  method TableThreeServed() returns (s: AppState, lines: seq<Line>, total: int)
    ensures |s.kitchenOrders| == 1 && s.kitchenOrders[0].table == 3 && s.kitchenOrders[0].status == Served
    ensures lines == [Line(Catalog[0], 2), Line(Catalog[8], 1)] && total == 420
    ensures ActiveOrderCount(s.kitchenOrders, 3) == 0
  {
    s := TableThreeSubmitted();
    var pending := s.kitchenOrders[0];
    lines, total := SummarizeItems(pending.items);
    WingsAndCoke();
    var r := s.UpdateOrderStatus(0, Preparing);
    assert s.kitchenOrders == [pending.(status := Preparing)];
    r := s.UpdateOrderStatus(0, Ready);
    var ready := pending.(status := Ready);
    assert s.kitchenOrders == [ready];
    SingleOrder(ready);
    r := s.MarkReadyItemsServed();
  }

  /** Submitting with an empty draft fails and the kitchen queue stays empty. */
  method EmptySubmitFails() returns (s: AppState, r: Outcome)
    ensures r == Fail(EmptyDraft) && s.kitchenOrders == []
  {
    s := new AppState.Boot(None);
    s.SelectTable(4);
    r := s.SendToKitchen();
  }

  /** The selected table puts two menu items in its empty draft and submits
      them: one more pending order, stamped with the clock, and nothing else
      of the state that a scenario reads changes. */
  method SubmitPair(s: AppState, x: MenuItem, y: MenuItem)
    requires s.Valid() && s.currentTable.Some?
    requires s.currentOrders[s.currentTable.value] == []
    modifies s
    ensures s.Valid() && s.currentTable == old(s.currentTable)
    ensures s.pendingVacation == old(s.pendingVacation) && s.ownerBills == old(s.ownerBills)
    ensures s.clock == old(s.clock) + 1 && s.currentOrders[s.currentTable.value] == []
    ensures s.kitchenOrders == old(s.kitchenOrders) +
      [KitchenOrder(old(s.clock), s.currentTable.value, [x, y], old(s.clock), Pending)]
  {
    var t := s.currentTable.value;
    var r := s.AddItemToOrder(x);
    r := s.AddItemToOrder(y);
    assert s.currentOrders[t] == [x, y];
    r := s.SendToKitchen();
  }

  /** Table 5 submits an order of Chicken Wings and Spring Rolls (300) and
      one of Garlic Bread and Fresh Lime Soda (150). */
  method TableFiveSubmitted() returns (s: AppState)
    ensures fresh(s) && s.Valid() && s.PreviewStaged() && s.currentTable == Some(5) && s.ownerBills == []
    ensures s.kitchenOrders == [KitchenOrder(0, 5, [Catalog[0], Catalog[2]], 0, Pending),
                                KitchenOrder(1, 5, [Catalog[3], Catalog[9]], 1, Pending)]
  {
    s := new AppState.Boot(None);
    s.SelectTable(5);
    SubmitPair(s, Catalog[0], Catalog[2]);
    SubmitPair(s, Catalog[3], Catalog[9]);
  }

  /** Once the kitchen view renders under the "all" filter, as it does after
      each submission, the stored queue holds table 5's orders newest first:
      the second submission ahead of the first. */
  method TableFiveKitchenView() returns (s: AppState)
    ensures s.Valid() && s.currentTable == Some(5)
    ensures s.kitchenOrders == [KitchenOrder(1, 5, [Catalog[3], Catalog[9]], 1, Pending),
                                KitchenOrder(0, 5, [Catalog[0], Catalog[2]], 0, Pending)]
  {
    s := TableFiveSubmitted();
    var submitted := s.kitchenOrders;
    NewestFirstReverses(submitted);
    assert submitted[..1] == [submitted[0]];
    assert Reverse(submitted) == [submitted[1]] + Reverse([submitted[0]]);
    s.RenderKitchenOrders(true);
  }

  /** A reload whose saved queue holds one pending Chicken Wings order for
      table 1, with id 1000 and timestamp 1001: the clock starts above both. */
  method ReloadOneOrder() returns (s: AppState)
    ensures fresh(s) && s.Valid() && s.currentTable == None && s.currentOrders == map[] && s.clock == 1002
    ensures s.kitchenOrders == [KitchenOrder(1000, 1, [Catalog[0]], 1001, Pending)]
  {
    var stored := StoredOrder(1000, 1, [Catalog[0]], 1001, Some(Pending));
    var loaded := MigrateAll([stored]);
    assert loaded == [Migrate(stored)];
    assert loaded[1..] == [];
    assert StampBound(loaded, []) == 1002;
    s := new AppState.Boot(Some(Snapshot(None, Some([stored]), None, None)));
  }

  /** After that reload, table 2 submits a Coke.  The new order is stamped
      after everything loaded, so the "all" render puts it ahead of the saved
      one. */
  method ReloadedKitchenView() returns (s: AppState)
    ensures s.Valid() && s.currentTable == Some(2)
    ensures s.kitchenOrders == [KitchenOrder(1002, 2, [Catalog[8]], 1002, Pending),
                                KitchenOrder(1000, 1, [Catalog[0]], 1001, Pending)]
  {
    var saved := KitchenOrder(1000, 1, [Catalog[0]], 1001, Pending);
    var coke := KitchenOrder(1002, 2, [Catalog[8]], 1002, Pending);
    s := ReloadOneOrder();
    s.SelectTable(2);
    var r := s.AddItemToOrder(Catalog[8]);
    assert s.currentOrders[2] == [Catalog[8]];
    r := s.SendToKitchen();
    assert s.kitchenOrders == [saved] + [coke];
    NewestFirstPutsNewerFirst([saved], coke);
    assert [saved][..0] == [];
    assert NewestFirst([saved]) == [saved];
    s.RenderKitchenOrders(true);
  }

  /** The items of table 5's two orders and their price sum, 450. */
  lemma TableFiveItems(first: KitchenOrder, second: KitchenOrder)
    requires first.items == [Catalog[0], Catalog[2]] && second.items == [Catalog[3], Catalog[9]]
    ensures AllItems([first, second]) == [Catalog[0], Catalog[2], Catalog[3], Catalog[9]]
    ensures PriceSum(AllItems([first, second])) == 450
  {
    AllItemsSnoc([], first);
    assert [] + [first] == [first];
    AllItemsSnoc([first], second);
    assert [first] + [second] == [first, second];
    var items := [Catalog[0], Catalog[2], Catalog[3], Catalog[9]];
    assert items[..3] == [Catalog[0], Catalog[2], Catalog[3]];
    assert items[..3][..2] == [Catalog[0], Catalog[2]];
    assert items[..3][..2][..1] == [Catalog[0]];
    assert [Catalog[0]][..0] == [];
    assert PriceSum([Catalog[0]]) == 180;
    assert PriceSum([Catalog[0], Catalog[2]]) == 300;
    assert PriceSum([Catalog[0], Catalog[2], Catalog[3]]) == 400;
  }

  /** Vacating table 5 stages a preview of 450; confirming archives one bill
      of 450 for table 5, empties its kitchen orders, leaves the table active
      and deselects it. */
  method TableFiveVacated() returns (s: AppState)
    ensures |s.ownerBills| == 1 && s.ownerBills[0].table == 5 && s.ownerBills[0].grandTotal == 450
    ensures s.ownerBills[0].paymentStatus == PaymentPending
    ensures OrdersOf(s.kitchenOrders, 5) == [] && 5 in s.tableStatus && s.tableStatus[5] == Active
    ensures s.currentTable == None
  {
    s := TableFiveSubmitted();
    var first, second := s.kitchenOrders[0], s.kitchenOrders[1];
    assert OrdersOf(s.kitchenOrders, 5) == [first, second] by {
      assert s.kitchenOrders[1..] == [second];
      SingleOrder(second);
    }
    TableFiveItems(first, second);
    var r := s.InitiateTableVacation();
    r := s.ConfirmTableVacation();
    RemoveTableOthers([first, second], 5);
  }
}

=== FILE: types.dfy ===
/** Values shared by every part of the order-management core: menu items,
    kitchen orders, bills, the staged vacation preview and the error taxonomy. */
module Types {

  datatype Option<T> = None | Some(value: T)

  datatype Category = Starters | Main | Drinks | Desserts

  /** A menu item id. The views group items in an object keyed by id, and an
      object enumerates array-index keys (0 up to 2^32 - 2) in ascending
      numeric order; ids are kept in that range. */
  type ItemId = k: int | 0 <= k <= 0xFFFF_FFFE

  /** One entry of the menu; a draft or a kitchen order holds copies of these. */
  datatype MenuItem = MenuItem(id: ItemId, name: string, price: int, category: Category)

  /** A grouped line as the views build it: the first item seen with this id and
      how many items with this id were seen. */
  datatype Line = Line(item: MenuItem, quantity: nat)

  datatype Status = Pending | Preparing | Ready | Served

  /** A submitted order in the kitchen queue. */
  datatype KitchenOrder = KitchenOrder(id: int, table: int, items: seq<MenuItem>, timestamp: int, status: Status)

  /** A bill is created with payment status "pending" and never moves on. */
  datatype PaymentStatus = PaymentPending

  /** An archived bill in the owner's ledger. */
  datatype Bill = Bill(id: int, table: int, timestamp: int, orders: seq<KitchenOrder>,
                       items: seq<Line>, grandTotal: int, paymentStatus: PaymentStatus)

  /** The preview staged between "vacate table" and "confirm". */
  datatype Vacation = Vacation(table: int, orders: seq<KitchenOrder>, items: seq<Line>, grandTotal: int)

  datatype TableStatus = Active | Vacated

  /** The failures an action reports to the user instead of changing the state. */
  datatype Error =
    | NoTableSelected
    | EmptyDraft
    | OrderNotFound
    | NoReadyOrders
    | NoOrdersForTable
    | NoPendingVacation
    | BillNotFound
    | AuthorizationDenied
    | EditModeInactive
    | NotConfirmed
    | NoBillsForDay

  /** The position of the first element whose key is `id`, as the queue's
      `find` and the ledger's `findIndex` by id look it up. */
  function FirstWith<T>(xs: seq<T>, key: T -> int, id: int): (r: Option<nat>)
    ensures r.None? ==> forall k :: 0 <= k < |xs| ==> key(xs[k]) != id
    ensures r.Some? ==> r.value < |xs| && key(xs[r.value]) == id &&
                        forall k :: 0 <= k < r.value ==> key(xs[k]) != id
  {
    if xs == [] then None
    else if key(xs[0]) == id then Some(0)
    else match FirstWith(xs[1..], key, id)
      case None => None
      case Some(k) => Some(k + 1)
  }

  datatype Outcome = Pass | Fail(error: Error)

  datatype Result<T> = Ok(value: T) | Err(error: Error)
}
